=== FILE: README.md ===
# Counter, menu and carousel scripts: a Dafny model

This project models the interactive scripts of a landing page, written in
TypeScript, as pure state machines in Dafny, and proves properties about them.

**Counter animation (`animateCounter`).**
- It reads the options `percent`, `duration`, `delay` and `repeat`, repairing or replacing invalid ones.
- It extracts the first number from the element's text and keeps the rest of the text as a decoration.
- It counts from `percent`% of that number up (or down) to the number at 60 frames per second.
- An intersection observer re-runs the count according to the repeat mode: `none`, `always`, `onReappear` or `onReverseScroll`.

**Dropdowns and menu (`toggleDropdown`, `toggleMenu`).**
- A group of dropdowns keeps at most one open.
- A single menu has an optional close button and keeps its toggle button above the menu's z-index.
- In both, a click outside closes the open panel once its opening animation has run.

**Endless carousel (`carouselList`).**
- One full copy of the item list is placed on each side of the list.
- The scroll position is read back as an index into the original items.
- A scroll that drifts into a copy jumps back to the same item in the middle block.
- A transition lock and a 200 ms debounce keep the prev/next buttons from piling up scrolls.

Each script is a state record, an `Event` datatype for what the browser delivers, and a `Step` function.
- Events include observer notifications, clicks, timer expiries and scroll positions.
- `Step` returns the new state and a list of `Effect`s, such as text writes, class changes, listener registrations and timers.

The modules are:
- `Wrappers`: `Option` and `Result`.
- `JsNumbers`: `Math.round`, the truncating `%`, and integer-to-decimal text.
- `CounterOptions`: option resolution.
- `CounterText`: trimming, the `/-?\d*\.?\d+/` match, `replace`, and rendering.
- `CounterEngine`: the animation state machine.
- `Dropdown`, `Menu` and `Carousel`.

Some behaviours follow the code exactly even though they may look surprising:
- The counter's text is always written as the rounded number followed by the decoration. Text in front of the number in the original element therefore moves behind it (`"$120"` becomes `"120$"`).
- `hasAnimated` is set only when a run finishes. A re-appearance while the first run is still under way (in `none` mode) therefore schedules a fresh start. Starting always cancels the previous ticker first, so at most one ticker is ever live (`CounterEngine.RunSingleTicker`).
- Option strings are parsed with `parseFloat`, which is a parameter of the model (`Parser`). The number matched in the element's text is given its exact decimal value (`CounterText.LiteralValue`).

## Model

| member | source | states |
|---|---|---|
| CounterOptions.ParseNumber | src/script/animateCounter.ts:39-52 | a real number is kept as given without warning; a string that parses gives its parsed value with a coercion warning; anything else (missing, NaN, unparseable) gives the default with an invalid-value warning |
| CounterOptions.ResolvePercent | src/script/animateCounter.ts:54-55 | percent is not range-checked: a number is kept as given and a parsable string as parsed (with the coercion warning), negative values included; anything else gives 70 with a warning |
| CounterOptions.ResolveDuration | src/script/animateCounter.ts:57-62 | the resolved duration is always positive: a non-positive parsed value is replaced by 2000 with a warning |
| CounterOptions.ResolveDelay | src/script/animateCounter.ts:64-69 | the resolved delay is never negative: a negative parsed value is replaced by 0 with a warning |
| CounterOptions.Lower | src/script/animateCounter.ts:74 | lower-casing keeps the length and maps each character on its own |
| CounterOptions.FirstMatch | src/script/animateCounter.ts:74-75 | `find` returns a listed mode whose name satisfies the test, and returns nothing only when no mode does |
| CounterOptions.ResolveRepeat | src/script/animateCounter.ts:71-79 | the mode is resolved without a warning only from a given value that equals its name ignoring case; otherwise it is `none` with one warning, as for an absent value |
| CounterOptions.ResolveRepeatSpec | src/script/animateCounter.ts:71-79 | the repeat option resolves to mode m exactly when it equals m's name ignoring case; an absent or unrecognised value gives `none` with a warning |
| CounterOptions.ResolveRepeatName | src/script/animateCounter.ts:72-73 | every mode's own name resolves to that mode without a warning |
| CounterOptions.FoldedNamesDistinct | src/script/animateCounter.ts:74-75 | no two modes share a name ignoring case, so the case-insensitive lookup is unambiguous |
| CounterOptions.Resolve | src/script/animateCounter.ts:30-79 | the resolved configuration always has a positive duration and a non-negative delay, and each field is the resolution of its own option |
| CounterText.LeadingSpaces | src/script/animateCounter.ts:83 | skips exactly the maximal run of ECMAScript white space from a position |
| CounterText.TrimmedEnd | src/script/animateCounter.ts:83 | backs over exactly the maximal run of white space before a position |
| CounterText.Trim | src/script/animateCounter.ts:83 | `trim` yields a contiguous slice of the text that neither starts nor ends with white space |
| CounterText.DigitRun | src/script/animateCounter.ts:84 | measures the maximal run of ASCII digits from a position |
| CounterText.BodyLengthSpec | src/script/animateCounter.ts:84 | the unsigned part of the pattern matched at a position is a well-formed body (digits with at most one dot, ending in a digit), and no longer body starts there |
| CounterText.MatchLengthSpec | src/script/animateCounter.ts:84 | the match at a position, with its optional minus sign, is a number literal, and it is the longest literal starting there |
| CounterText.SignedMatch | src/script/animateCounter.ts:84 | a match starting with a minus sign is the sign followed by the longest body after it, and there is none when no body follows |
| CounterText.FindFrom | src/script/animateCounter.ts:84 | finds the leftmost position from which a literal can be matched, with the longest literal there; absent only when no literal occurs at or after the position |
| CounterText.FindNumber | src/script/animateCounter.ts:84 | `match(/-?\d*\.?\d+/)` on the whole text: leftmost start, longest literal at that start, and no match only when the text contains no literal |
| CounterText.IndexOf | src/script/animateCounter.ts:86 | `replace` with a string pattern locates the first occurrence: the result is an occurrence and no earlier one exists |
| CounterText.ReplaceFirst | src/script/animateCounter.ts:86 | removes the first occurrence of the pattern and leaves the text unchanged when there is none |
| CounterText.FirstOccurrenceIsMatch | src/script/animateCounter.ts:84-86 | the first occurrence of the matched literal's text is the match itself, so removing it removes exactly the matched span |
| CounterText.ExtractSpec | src/script/animateCounter.ts:83-86 | with no number the base is 0 and the decoration is the whole trimmed text; otherwise the base is the matched literal's value and the decoration is the text before the match followed by the text after it |
| CounterText.Extract | src/script/animateCounter.ts:83-86 | without a number the base is 0 and the decoration is the whole text; with one the decoration is strictly shorter than the text |
| CounterText.IntToStringIsLiteral | src/script/animateCounter.ts:142 | a rounded value written as text is itself a number literal of the pattern, with that value |
| CounterText.BodyValue | src/script/animateCounter.ts:85 | an unsigned literal has a non-negative value, which for a digit string is its decimal value |
| CounterText.LiteralValue | src/script/animateCounter.ts:85 | `parseFloat` of a literal is non-negative without a minus sign and non-positive with one, and a digit string reads as its decimal value |
| CounterText.Render | src/script/animateCounter.ts:142 | the written text is longer than the decoration and ends with it: the number always comes first |
| CounterText.RenderReadsBack | src/script/animateCounter.ts:142 | what precedes the decoration in the written text is a number literal whose value is the rounded value |
| CounterText.RenderedLiteralEnds | src/script/animateCounter.ts:84 | a literal followed by text that starts with neither a digit nor a dot is matched whole and no further |
| CounterText.ExtractRender | src/script/animateCounter.ts:141-142 | text written by the counter reads back as the rounded value and the same decoration, whenever the decoration does not begin with a digit or a dot |
| JsNumbers.Round | src/script/animateCounter.ts:135 | `Math.round` lands within one half of its argument, rounding halves upward |
| JsNumbers.Ceil | src/script/carouselList.ts:16 | `Math.ceil` gives the least integer not below its argument |
| JsNumbers.Rem | src/script/carouselList.ts:51 | the truncating `%` has the sign of the dividend, a magnitude below the divisor, and differs from the Euclidean remainder by the divisor exactly when negative |
| JsNumbers.NatToDigits | src/script/animateCounter.ts:142 | a natural number is written as decimal digits with that value and no leading zero |
| JsNumbers.IntToString | src/script/animateCounter.ts:142 | an integer is written with a minus sign exactly when it is negative, followed by the digits of its magnitude |
| CounterEngine.CounterFor | src/script/animateCounter.ts:88-91 | the end value is the extracted number and the start value is `percent` per cent of it |
| CounterEngine.Attach | src/script/animateCounter.ts:83-104 | a freshly attached counter uses the resolved options and the extraction of the trimmed text, holds its start value as the current value (nothing is written until the first notification), has not animated, and has no live ticker or pending start |
| CounterEngine.ScrollDirection | src/script/animateCounter.ts:167-177 | the direction is down/right exactly when the new offset is strictly greater than the last one, and horizontal exactly in a scroll container |
| CounterEngine.HiddenSide | src/script/animateCounter.ts:191-207 | on the page the element is hidden at the top iff its bottom is above 0, else at the bottom iff its top is below the viewport height, never left or right; in a container the same by relative horizontal edges |
| CounterEngine.PageHeight | src/script/animateCounter.ts:184-186 | the viewport height is the inner height unless that is 0, when the document's client height is used; it is 0 only if both are |
| CounterEngine.LatchInitialSide | src/script/animateCounter.ts:209-212 | the initial hidden side, once set, never changes; it is set only by a non-intersecting notification before the first completed run |
| CounterEngine.OppositeIsReversal | src/script/animateCounter.ts:235-240 | the four-way reversal test in `shouldAnimate` holds exactly when the last direction is the opposite of the current one |
| CounterEngine.ShouldAnimate | src/script/animateCounter.ts:232-240 | the first run always starts; a restart after a completed run happens only in `onReappear` or `onReverseScroll` mode |
| CounterEngine.ShouldAnimateByMode | src/script/animateCounter.ts:232-240 | the first run always starts; after it, `none` never restarts, `onReappear` restarts iff the element was fully hidden, `onReverseScroll` iff the scroll reversed along one axis and the last hidden side is the first one |
| CounterEngine.CancelIfLive | src/script/animateCounter.ts:129-131 | starting clears a live ticker, leaving none |
| CounterEngine.TotalFrames | src/script/animateCounter.ts:133-135 | the frame count is 1 when duration × 60 / 1000 is below 1.5, and otherwise the integer nearest to it (halves rounding up) |
| CounterEngine.StepSize | src/script/animateCounter.ts:133-139 | the signed step carries the start value exactly to the end value in the frame count, and points from start towards end |
| CounterEngine.Interval | src/script/animateCounter.ts:137 | the interval period is positive, and the frame count of periods makes up exactly the duration |
| CounterEngine.StartAnimation | src/script/animateCounter.ts:128-143 | starting cancels the old ticker exactly when one is live, writes the rounded start value with the decoration, and leaves exactly one ticker live |
| CounterEngine.TickState | src/script/animateCounter.ts:144-157 | each tick keeps the value between start and end; the finishing tick clamps it to the end, stops the ticker and marks the counter as animated |
| CounterEngine.TickStep | src/script/animateCounter.ts:144-160 | every tick ends by writing the rounded current value with the decoration and never starts a second ticker |
| CounterEngine.OnVisible | src/script/animateCounter.ts:215-250 | outside `always` mode a start is scheduled iff not yet animated, or `onReappear` after being fully hidden, or `onReverseScroll` on a reversal back from the initial hidden side; in `always` mode a changed ratio stops the ticker and shows start + (end − start) × ratio; a scheduled start adds exactly one pending start, and the recorded hidden side and scroll direction are left alone |
| CounterEngine.VisibleValueBetween | src/script/animateCounter.ts:226-227 | the value shown for a ratio between 0 and 1 lies between start and end |
| CounterEngine.OnHidden | src/script/animateCounter.ts:251-266 | a notification with no hidden side changes nothing; otherwise the counter is marked fully hidden and, in `always` mode, reset to its start with the ticker stopped |
| CounterEngine.ObserveStep | src/script/animateCounter.ts:165-269 | every notification records the offset and direction; outside `always` mode an appearance schedules a start exactly when the restart rule holds for the direction from the previous offset and the previous recorded direction, adding one pending start; a disappearance on a known side marks the element fully hidden on that side, resetting to the start value in `always` mode; in `none` mode nothing is scheduled after a completed run |
| CounterEngine.DelayStep | src/script/animateCounter.ts:242-245 | an elapsed start delay starts the animation |
| CounterEngine.Step | src/script/animateCounter.ts:128-269 | no event leaves more than one ticker live, a completed run stays completed, and the initial hidden side stays fixed |
| CounterEngine.StepPreservesInv | src/script/animateCounter.ts:128-269 | a live ticker's value stays between start and end, and `always` mode never has a ticker or a pending start |
| CounterEngine.RunPreservesInv | src/script/animateCounter.ts:128-269 | the same invariant holds after any sequence of events |
| CounterEngine.RunSingleTicker | src/script/animateCounter.ts:128-161 | over any sequence of events at most one interval is live at any time |
| CounterEngine.RunKeepsHistory | src/script/animateCounter.ts:209-212 | over any sequence of events a completed run stays completed and a latched initial side stays latched |
| CounterEngine.OnceModeSchedulesNothing | src/script/animateCounter.ts:232-246 | in `none` mode no start is scheduled after the first completed run |
| CounterEngine.StepSchedulesNothing | src/script/animateCounter.ts:232-246 | in `none` mode no single event schedules a start once a run has completed |
| CounterEngine.FinalTick | src/script/animateCounter.ts:145-157 | a tick landing exactly on the end value finishes the run: value clamped to the end, ticker stopped, counter marked animated |
| CounterEngine.LastTick | src/script/animateCounter.ts:145-157 | the tick of the last frame lands exactly on the end value, stops the interval and marks the counter animated |
| CounterEngine.MiddleTick | src/script/animateCounter.ts:145-157 | a tick before the last frame advances the value by exactly one step and keeps the ticker running |
| CounterEngine.StepsShortOfEnd | src/script/animateCounter.ts:144-157 | before the last frame the running value has not yet reached the end |
| CounterEngine.RunFinishesOnTime | src/script/animateCounter.ts:133-157 | a started counter finishes exactly on its last frame with the end value, and on the first frame when start equals end |
| Dropdown.Create | src/script/menuAndDropdown.ts:129-162 | set-up fails exactly when the numbers of containers and buttons differ; otherwise all dropdowns start closed with no listener, with duration defaulting to 300 |
| Dropdown.CloseAllExcept | src/script/menuAndDropdown.ts:166-175 | every open dropdown but the given one is closed and its listener removed; the effects are exactly deactivations and listener removals of those dropdowns, each of them getting both; nothing else changes |
| Dropdown.Toggle | src/script/menuAndDropdown.ts:179-195 | the dropdown flips; opening closes every other open dropdown (deactivating it and removing its listener), then activates this one and schedules its listener as the last effect; closing emits exactly its deactivation and listener removal and touches no other dropdown |
| Dropdown.OutsideClick | src/script/menuAndDropdown.ts:204-212 | a click toggles the dropdown only when its listener is registered and the target is outside both its container and its button |
| Dropdown.ListenTimerAsWritten | src/script/menuAndDropdown.ts:187-189 | the timer registers the listener whether or not the dropdown is still open |
| Dropdown.ListenTimer | src/script/menuAndDropdown.ts:187-189 | the timer registers the listener only if the dropdown is still open |
| Dropdown.Step | src/script/menuAndDropdown.ts:197-219 | a button click toggles its dropdown, a document click goes through the outside-click rule, and a listener timer registers the listener only on a still-open dropdown; an event for a dropdown that does not exist changes nothing |
| Dropdown.CreateEstablishesInv | src/script/menuAndDropdown.ts:157-162 | a new group satisfies the invariant: at most one open, and only open dropdowns listen |
| Dropdown.StepPreservesInv | src/script/menuAndDropdown.ts:164-219 | every event keeps at most one dropdown open and the listeners on open dropdowns only |
| Dropdown.RunPreservesInv | src/script/menuAndDropdown.ts:164-219 | after any sequence of events at most one dropdown is open |
| Dropdown.OutsideClickOnlyCloses | src/script/menuAndDropdown.ts:204-212 | under the invariant an outside click never opens a dropdown |
| Dropdown.TimersAgreeWhileOpen | src/script/menuAndDropdown.ts:187-189 | the written and the corrected timer agree while the dropdown is open |
| Dropdown.StepAsWritten | src/script/menuAndDropdown.ts:187-219 | the script's own event handling with the unconditional timer: a button click toggles its dropdown, a document click goes through the outside-click rule, a timer registers the listener unconditionally and never opens or closes a dropdown, an event for a missing dropdown changes nothing |
| Dropdown.StepAsWrittenKeepsOneOpen | src/script/menuAndDropdown.ts:164-219 | even with the timer as written, every event keeps at most one dropdown open |
| Dropdown.RunAsWrittenKeepsOneOpen | src/script/menuAndDropdown.ts:164-219 | even with the timer as written, at most one dropdown is open after any sequence of events |
| Dropdown.StaleListenerReopens | src/script/menuAndDropdown.ts:179-212 | the script as written does not keep listeners on open dropdowns only: from a fresh group, open, close and the timer leave a closed dropdown listening, and a following outside click opens it |
| Menu.Setup | src/script/menuAndDropdown.ts:29-35 | the menu starts closed with no listener; the animation duration defaults to 300 |
| Menu.ZOrZero | src/script/menuAndDropdown.ts:42-43 | a parsed z-index falling back to 0 reads as 0 exactly for NaN and 0, and otherwise as the parsed integer |
| Menu.ButtonZ | src/script/menuAndDropdown.ts:42-46 | the button's z-index is the larger of one above the container's and its own, with NaN read as 0 |
| Menu.AdjustButtonZ | src/script/menuAndDropdown.ts:39-56 | with a close button nothing happens; otherwise the button is raised, then the open callback runs iff the menu is open and the close callback iff it is closed |
| Menu.Toggle | src/script/menuAndDropdown.ts:60-74 | the menu flips; opening activates it, adjusts the button (z-index, then the open callback) and schedules the listener last; closing deactivates it, removes the listener and then adjusts the button (z-index, then the close callback) |
| Menu.CloseButton | src/script/menuAndDropdown.ts:96-104 | the close button never opens the menu; it closes it when open and does nothing otherwise |
| Menu.OutsideClick | src/script/menuAndDropdown.ts:78-87 | a click toggles the menu exactly when the listener is registered and the target is outside container, button and close button |
| Menu.ListenTimerAsWritten | src/script/menuAndDropdown.ts:65-68 | the timer registers the listener whether or not the menu is still open |
| Menu.ListenTimer | src/script/menuAndDropdown.ts:65-68 | the listener ends registered exactly when it already was or the menu is still open when the timer fires |
| Menu.Mutated | src/script/menuAndDropdown.ts:106-113 | a style or class change re-adjusts the button only while the menu is open |
| Menu.Step | src/script/menuAndDropdown.ts:89-113 | the button toggles, the close button closes, a document click goes through the outside-click rule, a timer registers the listener only on a still-open menu, and a style change re-adjusts the button; timers and style changes never open or close the menu |
| Menu.RunPreservesInv | src/script/menuAndDropdown.ts:58-113 | after any sequence of events only an open menu has its outside-click listener |
| Menu.OutsideClickOnlyCloses | src/script/menuAndDropdown.ts:78-87 | under the invariant an outside click never opens the menu |
| Menu.TimersAgreeWhileOpen | src/script/menuAndDropdown.ts:65-68 | the written and the corrected timer agree while the menu is open |
| Menu.StepAsWritten | src/script/menuAndDropdown.ts:65-113 | the script's own event handling with the unconditional timer: a close-button click leaves the menu closed, timers and style changes never open or close it, and a timer that was pending always registers the listener |
| Menu.StaleListenerReopens | src/script/menuAndDropdown.ts:60-87 | the script as written does not keep the listener on an open menu only: from set-up, open, close and the timer leave a closed menu listening, and a following outside click opens it |
| Carousel.ClonesPerSide | src/script/carouselList.ts:16 | the clone count, `Math.ceil` of the item count, is the count itself: one full copy of the list on each side |
| Carousel.CloneSources | src/script/carouselList.ts:17-19 | both clone sources of every round are valid item indices: item i after the list and item total−1−i before it |
| Carousel.BuildTrack | src/script/carouselList.ts:15-22 | the cloning loop leaves the track as three consecutive copies of the items |
| Carousel.TrackGrows | src/script/carouselList.ts:17-21 | each round of the loop prepends one item and appends one, keeping the track symmetric around the original list |
| Carousel.NormalizeIndex | src/script/carouselList.ts:51-52 | the normalised index is in [0, total) and equals the mathematical remainder, for negative rounded indices too |
| Carousel.Setup | src/script/carouselList.ts:24-30 | each item is a third of the list width over the item count, and the view starts at the first original item |
| Carousel.NearMiddle | src/script/carouselList.ts:55 | with one copy of the list per side, a scroll index is near the middle exactly when it lies between total − 1 and 2 × total |
| Carousel.HandleScroll | src/script/carouselList.ts:46-62 | the index is the rounded scroll index minus the clone count, modulo the count; near the middle the lock is released, otherwise the view jumps into the original block and the lock is kept |
| Carousel.SnapTarget | src/script/carouselList.ts:55-58 | the jump target lies in the original block and shows the same item |
| Carousel.ScrollByOffset | src/script/carouselList.ts:33-43 | the lock is always held afterwards; a smooth scroll is requested exactly when the lock was free, and its target is `offset` item widths from the current position |
| Carousel.Step | src/script/carouselList.ts:64-88 | every scroll runs `handleScroll` (its index, lock, scroll position and snap-back jump) and then disables the buttons and restarts the 200 ms debounce, in that order; the debounce releases the lock and re-enables them; a click while locked or disabled does nothing, otherwise it locks and scrolls by one item |
| Carousel.DoubleClickScrollsOnce | src/script/carouselList.ts:33-35 | after a click that starts a scroll, a second click before any scroll or debounce event is ignored, so two quick clicks move one item |
| Carousel.RunPreservesInv | src/script/carouselList.ts:64-88 | after any events the index stays in range, and the buttons are disabled exactly while the debounce is pending |
| Carousel.ReadBackOriginal | src/script/carouselList.ts:46-61 | a position exactly on an original item reads back as that item and releases the lock |
| Carousel.SnapBackSettles | src/script/carouselList.ts:54-61 | the jump does not release the lock itself, but the scroll it causes reads back the same item and releases it |

## Left out

- IEEE double behaviour: values are exact reals and integers, so there is no NaN or Infinity arithmetic, no rounding error in the step accumulation, and no exponent notation for numbers of 1e21 or more.
- `parseFloat` on option strings is an abstract parser parameter; only its result (a number or NaN) is modelled.
- Lower-casing of the repeat option is ASCII-only. None of the four mode names can be reached from a non-ASCII character except through the Kelvin sign, and no mode name contains `k`.
- DOM access is not modelled: `textContent`, `classList`, `getBoundingClientRect`, `getComputedStyle`, `scrollTo`, `scrollLeft`, `contains`. Its results arrive as event fields, and its writes leave as effects.
- The search for a horizontally scrolling ancestor (src/script/animateCounter.ts:108-117) is a boolean `inContainer`; the viewport height fallback `innerHeight || clientHeight` is kept.
- Timers and observers (`setTimeout`, `setInterval`, `IntersectionObserver`, `MutationObserver`) become events: `DelayElapsed`, `Tick`, `ListenTimerFired`, `ContainerMutated`, `Scrolled` and `DebounceFired`. Their timing is whatever order the event sequence gives.
- A click that reaches the document is delivered to each dropdown's handler as a separate event. The order in which registered listeners run is therefore left to the event sequence.
- The `instanceof HTMLElement` checks and `console` output are not modelled. Warnings from option resolution are kept as a list of tags, and the menu's set-up assumes valid elements.
- Dropdown.Step and Menu.Step use the corrected listener timer, not the written one (see Findings). The script as written is Dropdown.StepAsWritten and Menu.StepAsWritten: it still keeps at most one dropdown open, but not the rule that only an open dropdown or menu listens for outside clicks.
- CounterOptions.FirstMatch: does not say which mode `find` returns when several qualify, because for both tests used at most one mode ever qualifies.
- Carousel.Setup: assumes that every item passed in is a `.service-item` child of the list, so that the script's item count after cloning (`querySelectorAll('.service-item').length`, src/script/carouselList.ts:24-28) is three times the number of items. With other matching elements in the list the width per item differs, and the model does not represent that.
- Carousel.Setup requires a positive list width: with zero width the script divides by zero and every later position is NaN, which the model does not represent.
- The scroll-into-place behaviour of the browser (clamping `scrollLeft` to the scrollable range, smooth-scroll timing) is not modelled; scroll positions arrive as events.
- `src/script/main.ts` is not part of this model; it only wires the scripts to the page.

## Findings

| source | as written | input that shows it | evidently intended | confidence | as-written member | corrected member |
|---|---|---|---|---|---|---|
| src/script/menuAndDropdown.ts:187-189 | the timer scheduled when a dropdown opens registers the outside-click listener even if the dropdown has been closed meanwhile | open a dropdown, close it within the animation duration, then click outside it once the timer has fired: the dropdown opens | an outside click only ever closes a dropdown; the listener is registered only while it is open | not executed | Dropdown.ListenTimerAsWritten, in Dropdown.StepAsWritten (exhibited by Dropdown.StaleListenerReopens) | Dropdown.ListenTimer (Dropdown.OutsideClickOnlyCloses, Dropdown.RunPreservesInv) |
| src/script/menuAndDropdown.ts:65-68 | the timer scheduled when the menu opens registers the outside-click listener even if the menu has been closed meanwhile | open the menu, close it within the animation duration, then click outside once the timer has fired: the menu opens | an outside click only ever closes the menu; the listener is registered only while it is open | not executed | Menu.ListenTimerAsWritten, in Menu.StepAsWritten (exhibited by Menu.StaleListenerReopens) | Menu.ListenTimer (Menu.OutsideClickOnlyCloses, Menu.RunPreservesInv) |

=== FILE: carousel.dfy ===
/** The endless carousel: the list of items is surrounded by one full copy on
    each side, the scroll position is read back as an index into the
    original items, and a scroll that drifts into the copies is jumped back
    to the equivalent place in the middle block. */
module Carousel {
  import opened JsNumbers

  /** `Math.ceil` of the item count: one full copy of the list per side,
      since the count is an integer. */
  function ClonesPerSide(total: nat): (k: nat)
    ensures k == total
  {
    Ceil(total as real)
  }

  /** The items copied in round `i` of the cloning loop: the one appended
      after the list and the one inserted before it. */
  function CloneSources(total: nat, i: nat): (r: (int, int))
    requires total > 0 && i < ClonesPerSide(total)
    ensures 0 <= r.0 < total && 0 <= r.1 < total
    ensures r == (i, total - 1 - i)
  {
    SmallRemainder(i, total);
    SmallRemainder(total - 1 - i, total);
    (Rem(i, total), Rem(total - 1 - i, total))
  }

  lemma SmallRemainder(a: int, n: int)
    requires 0 <= a < n
    ensures Rem(a, n) == a
  {
    EuclideanUnique(a, n, 0, a);
  }

  /** The track the cloning loop builds: after round `i` the last `i` items
      stand in front of the list and the first `i` items after it. */
  method BuildTrack<T>(items: seq<T>) returns (track: seq<T>)
    requires |items| > 0
    ensures track == items + items + items
  {
    var n := |items|;
    track := items;
    var i := 0;
    while i < ClonesPerSide(n)
      invariant 0 <= i <= n
      invariant track == items[n - i..] + items + items[..i]
    {
      var sources := CloneSources(n, i);
      TrackGrows(items, i);
      track := [items[sources.1]] + track + [items[sources.0]];
      i := i + 1;
    }
    assert items[n - n..] == items && items[..n] == items;
  }

  /** One round of cloning extends the track by one item on each side. */
  lemma TrackGrows<T>(items: seq<T>, i: nat)
    requires i < |items|
    ensures var n := |items|;
            [items[n - 1 - i]] + (items[n - i..] + items + items[..i]) + [items[i]]
              == items[n - 1 - i..] + items + items[..i + 1]
  {
    var n := |items|;
    assert items[n - 1 - i..] == [items[n - 1 - i]] + items[n - i..];
    assert items[..i + 1] == items[..i] + [items[i]];
  }

  /** `Math.round(k) % total`, lifted into range by adding `total` when the
      truncating remainder is negative. */
  function NormalizeIndex(k: int, total: nat): (r: int)
    requires total > 0
    ensures 0 <= r < total
    ensures r == k % total
  {
    var m := Rem(k, total);
    if m < 0 then m + total else m
  }

  /** What the carousel script keeps between events, and what it has asked
      of the page: the scroll position of the list, the current index into
      the original items, the transition lock, the disabled state of both
      buttons and whether the 200 ms debounce timer is armed. */
  datatype Carousel = Carousel(
    total: nat,
    itemWidth: real,
    scrollLeft: real,
    currentIndex: int,
    isTransitioning: bool,
    buttonsDisabled: bool,
    debouncePending: bool)

  datatype Effect =
    | SmoothScrollTo(left: real)
    | JumpTo(left: real)
    | DisableButtons
    | EnableButtons
    | RestartDebounce(delay: nat)

  /** A scroll event carries the list's scroll position at that moment (set by
      the browser's smooth scrolling or by the user). Clicks on a disabled
      button never reach the script. */
  datatype Event =
    | Scrolled(position: real)
    | NextClick
    | PrevClick
    | DebounceFired

  const DebounceDelay: nat := 200

  predicate Inv(c: Carousel) {
    && c.total > 0
    && c.itemWidth > 0.0
    && 0 <= c.currentIndex < c.total
    && (c.debouncePending <==> c.buttonsDisabled)
  }

  /** The set-up after cloning: the track holds three copies, so each item is
      a third of the list's width over `total`, and the view starts at the
      first original item. */
  function Setup(total: nat, scrollWidth: real): (r: (Carousel, seq<Effect>))
    requires total > 0 && scrollWidth > 0.0
    ensures Inv(r.0)
    ensures r.0.itemWidth * (3 * total) as real == scrollWidth
    ensures r.0.scrollLeft == r.0.itemWidth * ClonesPerSide(total) as real
    ensures r.0.currentIndex == 0 && !r.0.isTransitioning && !r.0.buttonsDisabled
    ensures r.1 == [JumpTo(r.0.scrollLeft)]
  {
    var w := scrollWidth / (3 * total) as real;
    var start := w * ClonesPerSide(total) as real;
    (Carousel(total, w, start, 0, false, false, false), [JumpTo(start)])
  }

  /** The scroll index lies in the original block or in the item next to it on
      either side. */
  predicate NearMiddle(total: nat, scrollIndex: real)
    ensures NearMiddle(total, scrollIndex) <==> (total - 1) as real <= scrollIndex <= (2 * total) as real
  {
    (ClonesPerSide(total) - 1) as real <= scrollIndex <= (ClonesPerSide(total) + total) as real
  }

  /** `handleScroll`: reads the index back from the position; near the middle
      it releases the lock, otherwise it jumps to the same item in the
      original block and keeps the lock. */
  function HandleScroll(c: Carousel, position: real): (r: (Carousel, seq<Effect>))
    requires Inv(c)
    ensures Inv(r.0)
    ensures r.0.currentIndex == Round(position / c.itemWidth - ClonesPerSide(c.total) as real) % c.total
    ensures NearMiddle(c.total, position / c.itemWidth) ==>
              r == (c.(scrollLeft := position, currentIndex := r.0.currentIndex, isTransitioning := false), [])
    ensures !NearMiddle(c.total, position / c.itemWidth) ==>
              && r.0 == c.(scrollLeft := r.0.scrollLeft, currentIndex := r.0.currentIndex)
              && r.0.scrollLeft == c.itemWidth * (r.0.currentIndex + ClonesPerSide(c.total)) as real
              && r.1 == [JumpTo(r.0.scrollLeft)]
  {
    var scrollIndex := position / c.itemWidth;
    var index := NormalizeIndex(Round(scrollIndex - ClonesPerSide(c.total) as real), c.total);
    if !NearMiddle(c.total, scrollIndex) then
      var target := c.itemWidth * SnapTarget(index, c.total) as real;
      (c.(scrollLeft := target, currentIndex := index), [JumpTo(target)])
    else
      (c.(scrollLeft := position, currentIndex := index, isTransitioning := false), [])
  }

  /** The jump target: the current item's place in the original block. */
  function SnapTarget(index: int, total: nat): (t: int)
    requires total > 0 && 0 <= index < total
    ensures ClonesPerSide(total) <= t < ClonesPerSide(total) + total
    ensures t % total == index
  {
    index + ClonesPerSide(total)
  }

  /** `scrollByOffset`: ignored while a transition holds the lock; otherwise
      takes the lock and smoothly scrolls by `offset` items. */
  function ScrollByOffset(c: Carousel, offset: int): (r: (Carousel, seq<Effect>))
    ensures r.0 == c.(isTransitioning := true)
    ensures r.1 != [] <==> !c.isTransitioning
    ensures forall fx :: fx in r.1 ==> fx == SmoothScrollTo(c.scrollLeft + offset as real * c.itemWidth)
  {
    if c.isTransitioning then (c, [])
    else (c.(isTransitioning := true), [SmoothScrollTo(c.scrollLeft + offset as real * c.itemWidth)])
  }

  /** One event. A scroll runs both scroll listeners in the order they were
      registered: `handleScroll`, then the one that disables both buttons and
      restarts the debounce timer. */
  function Step(c: Carousel, e: Event): (r: (Carousel, seq<Effect>))
    requires Inv(c)
    ensures Inv(r.0)
    ensures r.0.total == c.total && r.0.itemWidth == c.itemWidth
    ensures e.Scrolled? ==> r.0.buttonsDisabled && r.0.debouncePending
    ensures e.Scrolled? ==>
              && r.0.currentIndex == HandleScroll(c, e.position).0.currentIndex
              && r.0.isTransitioning == HandleScroll(c, e.position).0.isTransitioning
              && |r.1| >= 2 && r.1[|r.1| - 2..] == [DisableButtons, RestartDebounce(DebounceDelay)]
    ensures e.Scrolled? ==>
              && r.0.scrollLeft == HandleScroll(c, e.position).0.scrollLeft
              && r.1 == HandleScroll(c, e.position).1 + [DisableButtons, RestartDebounce(DebounceDelay)]
    ensures e.DebounceFired? && c.debouncePending ==> !r.0.isTransitioning && !r.0.buttonsDisabled
    ensures (e.NextClick? || e.PrevClick?) && (c.buttonsDisabled || c.isTransitioning) ==> r == (c, [])
    ensures (e.NextClick? || e.PrevClick?) && !c.buttonsDisabled && !c.isTransitioning ==>
              && r.0 == c.(isTransitioning := true)
              && r.1 == [SmoothScrollTo(c.scrollLeft + (if e.NextClick? then c.itemWidth else -c.itemWidth))]
  {
    match e
    case Scrolled(position) =>
      var (c1, fx1) := HandleScroll(c, position);
      (c1.(buttonsDisabled := true, debouncePending := true),
       fx1 + [DisableButtons, RestartDebounce(DebounceDelay)])
    case NextClick =>
      if c.buttonsDisabled then (c, []) else ScrollByOffset(c, 1)
    case PrevClick =>
      if c.buttonsDisabled then (c, []) else ScrollByOffset(c, -1)
    case DebounceFired =>
      if !c.debouncePending then (c, [])
      else (c.(buttonsDisabled := false, debouncePending := false, isTransitioning := false), [EnableButtons])
  }

  function Run(c: Carousel, events: seq<Event>): Carousel
    requires Inv(c)
    decreases |events|
  {
    if |events| == 0 then c else Run(Step(c, events[0]).0, events[1..])
  }

  lemma {:induction false} RunPreservesInv(c: Carousel, events: seq<Event>)
    requires Inv(c)
    ensures Inv(Run(c, events))
    ensures Run(c, events).total == c.total && Run(c, events).itemWidth == c.itemWidth
    decreases |events|
  {
    if |events| > 0 {
      RunPreservesInv(Step(c, events[0]).0, events[1..]);
    }
  }

  /** A click that starts a scroll holds the lock: a second click before the
      next scroll or debounce event is ignored, so two quick clicks move by one
      item only. */
  lemma DoubleClickScrollsOnce(c: Carousel, first: Event, second: Event)
    requires Inv(c)
    requires (first.NextClick? || first.PrevClick?) && (second.NextClick? || second.PrevClick?)
    ensures var c1 := Step(c, first).0;
            Step(c1, second) == (c1, [])
  {
  }

  /** The jump lands in the original block, so the scroll event it causes
      reads back the same index and releases the lock. */
  lemma SnapBackSettles(c: Carousel, position: real)
    requires Inv(c)
    requires !NearMiddle(c.total, position / c.itemWidth)
    ensures var c1 := HandleScroll(c, position).0;
            var c2 := HandleScroll(c1, c1.scrollLeft).0;
            && c1.isTransitioning == c.isTransitioning
            && c2.currentIndex == c1.currentIndex
            && !c2.isTransitioning
            && c2.scrollLeft == c1.scrollLeft
  {
    var c1 := HandleScroll(c, position).0;
    var t := SnapTarget(c1.currentIndex, c.total);
    assert (c.itemWidth * t as real) / c.itemWidth == t as real;
    ReadBackOriginal(c1, t);
  }

  /** A position exactly at item `t` of the original block reads back as
      that item and releases the lock. */
  lemma ReadBackOriginal(c: Carousel, t: int)
    requires Inv(c)
    requires t == SnapTarget(c.currentIndex, c.total)
    requires c.scrollLeft / c.itemWidth == t as real
    ensures HandleScroll(c, c.scrollLeft).0.currentIndex == c.currentIndex
    ensures !HandleScroll(c, c.scrollLeft).0.isTransitioning
    ensures HandleScroll(c, c.scrollLeft).0.scrollLeft == c.scrollLeft
  {
    assert NearMiddle(c.total, t as real);
    assert Round(t as real - ClonesPerSide(c.total) as real) == c.currentIndex;
    SmallRemainder(c.currentIndex, c.total);
  }
}

=== FILE: counter_engine.dfy ===
/** The counter animation engine: explicit per-instance state and pure step
    functions for the three things that drive it, a visibility notification
    (`Observe`), the expiry of a start delay (`DelayElapsed`) and a tick of
    the interpolation interval (`Tick`). Each step returns the new state and
    the effects the page performs: text writes, scheduled starts, interval
    starts and cancellations. */
module CounterEngine {
  import opened Wrappers
  import opened JsNumbers
  import opened CounterOptions
  import opened CounterText

  datatype Direction = Up | Down | Left | Right

  /** The edge of the viewport or container an element disappeared behind. */
  datatype Side = Top | Bottom | LeftSide | RightSide

  /** The element's bounding rectangle at notification time. */
  datatype Rect = Rect(top: real, bottom: real, left: real, right: real)

  /** Geometry of the scroll root at notification time: the window's inner
      height with the document's client height as fallback (page), or the
      container's left edge and client width (horizontal container). */
  datatype Frame = Frame(innerHeight: real, documentHeight: real, containerLeft: real, containerWidth: real)

  /** What is fixed when a counter is attached to an element. `inContainer`
      tells whether an ancestor scrolls horizontally (overflow-x `auto` or
      `scroll`); otherwise the page viewport is the scroll root. */
  datatype Counter = Counter(config: Config, decoration: string, start: real, end: real, inContainer: bool)

  /** The mutable state of one counter. `lastOffset` is the last vertical page
      offset or horizontal container offset read; `pendingStarts` counts the
      start delays scheduled and not yet expired. */
  datatype CounterState = CounterState(
    hasAnimated: bool,
    isFullyHidden: bool,
    lastOffset: real,
    lastScrollDirection: Option<Direction>,
    initialHiddenSide: Option<Side>,
    lastHiddenSide: Option<Side>,
    currentValue: real,
    lastIntersectionRatio: real,
    tickerActive: bool,
    pendingStarts: nat)

  datatype Event =
    | Observe(intersecting: bool, ratio: real, scrollOffset: real, rect: Rect, frame: Frame)
    | DelayElapsed
    | Tick

  datatype Effect =
    | WriteText(text: string)
    | ScheduleStart(delay: real)
    | StartTicker(interval: real)
    | CancelTicker

  predicate ValidCounter(c: Counter) {
    ValidConfig(c.config)
  }

  predicate Between(a: real, b: real, x: real) {
    (a <= x <= b) || (b <= x <= a)
  }

  // ---------------------------------------------------------------------------
  // Attaching a counter
  // ---------------------------------------------------------------------------

  function Initial(c: Counter, offset: real): CounterState {
    CounterState(false, false, offset, Option.None, Option.None, Option.None, c.start, 0.0, false, 0)
  }

  datatype Attached = Attached(counter: Counter, state: CounterState, warnings: seq<Warning>)

  /** The end value is the number shown; the start value is `percent` percent
      of it, whatever the signs. */
  function CounterFor(cfg: Config, x: Extraction, inContainer: bool): (c: Counter)
    ensures c.end == x.base && c.decoration == x.decoration
    ensures c.start * 100.0 == c.end * cfg.percent
    ensures c.config == cfg && c.inContainer == inContainer
  {
    Counter(cfg, x.decoration, x.base * (cfg.percent / 100.0), x.base, inContainer)
  }

  /** Attaching a counter: the options are resolved, the trimmed text is split
      into its leftmost number and the decoration, and the initial state has
      nothing animated, nothing scheduled and the start value current. Nothing
      is written until the first notification. */
  function Attach(text: string, percent: RawNumber, duration: RawNumber, delay: RawNumber,
                  repeat: Option<string>, parse: Parser, inContainer: bool, offset: real): (r: Attached)
    ensures ValidCounter(r.counter)
    ensures r.counter == CounterFor(Resolve(percent, duration, delay, repeat, parse).value, Extract(Trim(text)), inContainer)
    ensures Inv(r.counter, r.state)
    ensures !r.state.hasAnimated && !r.state.tickerActive && r.state.pendingStarts == 0
    ensures r.state.currentValue == r.counter.start && r.state.lastOffset == offset
  {
    var cfg := Resolve(percent, duration, delay, repeat, parse);
    var c := CounterFor(cfg.value, Extract(Trim(text)), inContainer);
    Attached(c, Initial(c, offset), cfg.warnings)
  }

  // ---------------------------------------------------------------------------
  // Scroll direction and hidden side
  // ---------------------------------------------------------------------------

  /** Down (page) or right (container) exactly when the offset grew strictly;
      an unchanged offset counts as up or left. */
  function ScrollDirection(inContainer: bool, last: real, now: real): (d: Direction)
    ensures (d == Down || d == Right) <==> now > last
    ensures (d == Left || d == Right) <==> inContainer
  {
    if !inContainer then (if now > last then Down else Up)
    else (if now > last then Right else Left)
  }

  /** `innerHeight || clientHeight`: a zero inner height falls back. */
  function PageHeight(f: Frame): (h: real)
    ensures h == f.innerHeight || h == f.documentHeight
    ensures h != f.innerHeight ==> f.innerHeight == 0.0
    ensures h == 0.0 ==> f.innerHeight == 0.0 && f.documentHeight == 0.0
  {
    if f.innerHeight != 0.0 then f.innerHeight else f.documentHeight
  }

  /** The side an element is hidden behind. On the page only the top and
      bottom edges are considered, top first; in a container only the left and
      right edges, measured from the container's left edge, left first. */
  function HiddenSide(inContainer: bool, rect: Rect, f: Frame): (h: Option<Side>)
    ensures !inContainer ==>
              && (h == Some(Top) <==> rect.bottom < 0.0)
              && (h == Some(Bottom) <==> rect.bottom >= 0.0 && rect.top > PageHeight(f))
              && h != Some(LeftSide) && h != Some(RightSide)
    ensures inContainer ==>
              && (h == Some(LeftSide) <==> rect.right - f.containerLeft < 0.0)
              && (h == Some(RightSide) <==> rect.right - f.containerLeft >= 0.0 && rect.left - f.containerLeft > f.containerWidth)
              && h != Some(Top) && h != Some(Bottom)
  {
    if !inContainer then
      if rect.bottom < 0.0 then Some(Top)
      else if rect.top > PageHeight(f) then Some(Bottom)
      else Option.None
    else
      var relativeLeft := rect.left - f.containerLeft;
      var relativeRight := rect.right - f.containerLeft;
      if relativeRight < 0.0 then Some(LeftSide)
      else if relativeLeft > f.containerWidth then Some(RightSide)
      else Option.None
  }

  /** The one-time record of the first hidden side: taken while nothing has
      completed, the side is unknown and the element is not intersecting. A
      recorded side is never replaced, but an unknown one may be recorded
      again (as unknown, or later as a real side). */
  function LatchInitialSide(s: CounterState, intersecting: bool, side: Option<Side>): (r: Option<Side>)
    ensures s.initialHiddenSide.Some? ==> r == s.initialHiddenSide
    ensures r != s.initialHiddenSide ==> !s.hasAnimated && !intersecting && r == side
    ensures !s.hasAnimated && s.initialHiddenSide.None? && !intersecting ==> r == side
  {
    if !s.hasAnimated && s.initialHiddenSide.None? && !intersecting then side else s.initialHiddenSide
  }

  function Opposite(d: Direction): Direction {
    match d
    case Up => Down
    case Down => Up
    case Left => Right
    case Right => Left
  }

  /** The restart rule outside `Always` mode, evaluated on each appearance. */
  predicate ShouldAnimate(mode: RepeatMode, s: CounterState, dir: Direction)
    ensures !s.hasAnimated ==> ShouldAnimate(mode, s, dir)
    ensures ShouldAnimate(mode, s, dir) && s.hasAnimated ==> mode == OnReappear || mode == OnReverseScroll
  {
    || !s.hasAnimated
    || (mode == OnReappear && s.isFullyHidden)
    || (mode == OnReverseScroll && s.lastScrollDirection == Some(Opposite(dir))
        && s.hasAnimated && s.lastHiddenSide == s.initialHiddenSide)
  }

  /** The restart rule mode by mode. Once-only (and `Always`, which never
      consults it) starts only the first run; `OnReappear` also restarts
      after the element was fully hidden; `OnReverseScroll` also restarts
      when the scroll reversed along the same axis and the element was last
      hidden on the side it was first hidden on. */
  lemma ShouldAnimateByMode(mode: RepeatMode, s: CounterState, dir: Direction)
    ensures !s.hasAnimated ==> ShouldAnimate(mode, s, dir)
    ensures mode == RepeatMode.None || mode == Always ==> (ShouldAnimate(mode, s, dir) <==> !s.hasAnimated)
    ensures mode == OnReappear ==> (ShouldAnimate(mode, s, dir) <==> !s.hasAnimated || s.isFullyHidden)
    ensures mode == OnReverseScroll ==>
              (ShouldAnimate(mode, s, dir) <==>
                 || !s.hasAnimated
                 || (&& s.lastHiddenSide == s.initialHiddenSide
                     && ((dir == Up && s.lastScrollDirection == Some(Down))
                         || (dir == Down && s.lastScrollDirection == Some(Up))
                         || (dir == Left && s.lastScrollDirection == Some(Right))
                         || (dir == Right && s.lastScrollDirection == Some(Left)))))
  {
  }

  /** Only a reversal along the same axis counts as the opposite direction. */
  lemma OppositeIsReversal(prev: Direction, now: Direction)
    ensures prev == Opposite(now) <==>
              (now == Up && prev == Down) || (now == Down && prev == Up)
              || (now == Left && prev == Right) || (now == Right && prev == Left)
  {
  }

  // ---------------------------------------------------------------------------
  // Interval bookkeeping
  // ---------------------------------------------------------------------------

  function Live(s: CounterState): nat {
    if s.tickerActive then 1 else 0
  }

  /** Replays the ticker effects on a count of live intervals. `None` means an
      interval was started while another one was live, i.e. two drivers would
      write to the element at once. Cancelling with none live does nothing. */
  function Tickers(live: nat, fx: seq<Effect>): Option<nat>
    decreases |fx|
  {
    if |fx| == 0 then Some(live)
    else
      match fx[0]
      case StartTicker(_) => if live == 0 then Tickers(1, fx[1..]) else Option.None
      case CancelTicker => Tickers(if live > 0 then live - 1 else 0, fx[1..])
      case _ => Tickers(live, fx[1..])
  }

  lemma {:induction false} TickersAppend(live: nat, a: seq<Effect>, b: seq<Effect>)
    requires Tickers(live, a).Some?
    ensures Tickers(live, a + b) == Tickers(Tickers(live, a).value, b)
    decreases |a|
  {
    if |a| > 0 {
      assert (a + b)[0] == a[0];
      assert (a + b)[1..] == a[1..] + b;
      match a[0]
      case StartTicker(_) => TickersAppend(1, a[1..], b);
      case CancelTicker => TickersAppend(if live > 0 then live - 1 else 0, a[1..], b);
      case _ => TickersAppend(live, a[1..], b);
    } else {
      assert a + b == b;
    }
  }

  function CancelIfLive(s: CounterState): (fx: seq<Effect>)
    ensures Tickers(Live(s), fx) == Some(0)
  {
    if s.tickerActive then [CancelTicker] else []
  }

  // ---------------------------------------------------------------------------
  // The animation driver
  // ---------------------------------------------------------------------------

  /** The number of ticks of one run: the duration at 60 ticks per second,
      rounded, and at least one. */
  function TotalFrames(c: Counter): (n: int)
    requires ValidCounter(c)
    ensures n >= 1
    ensures c.config.duration * 60.0 / 1000.0 < 1.5 ==> n == 1
    ensures c.config.duration * 60.0 / 1000.0 >= 1.5 ==>
              n as real - 0.5 <= c.config.duration * 60.0 / 1000.0 < n as real + 0.5
  {
    var r := Round(c.config.duration / 1000.0 * 60.0);
    if r > 1 then r else 1
  }

  /** The signed increment of one tick: a run takes the distance in
      `TotalFrames` equal steps towards the end value. With equal start and
      end the direction is taken as downwards and the step is zero. */
  function StepSize(c: Counter): (step: real)
    requires ValidCounter(c)
    ensures step * TotalFrames(c) as real == c.end - c.start
    ensures c.start < c.end ==> step > 0.0
    ensures c.start > c.end ==> step < 0.0
    ensures c.start == c.end ==> step == 0.0
  {
    var frames := TotalFrames(c) as real;
    var distance := if c.end >= c.start then c.end - c.start else c.start - c.end;
    var step := distance / frames;
    if c.start < c.end then step else -step
  }

  /** The period of the interval: one frame of the run's duration, so that
      `TotalFrames` ticks take the whole duration. */
  function Interval(c: Counter): (r: real)
    requires ValidCounter(c)
    ensures r > 0.0 && r * TotalFrames(c) as real == c.config.duration
  {
    c.config.duration / TotalFrames(c) as real
  }

  /** Starting a run: any live interval is cancelled first, the start value is
      written at once, and exactly one interval is live afterwards. */
  function StartAnimation(c: Counter, s: CounterState): (r: (CounterState, seq<Effect>))
    requires ValidCounter(c)
    ensures r.0 == s.(currentValue := c.start, tickerActive := true)
    ensures Tickers(Live(s), r.1) == Some(1)
    ensures |r.1| >= 2 && r.1[|r.1| - 2] == WriteText(Render(c.start, c.decoration))
    ensures r.1[|r.1| - 1] == StartTicker(Interval(c))
    ensures (CancelTicker in r.1) <==> s.tickerActive
  {
    var run := [WriteText(Render(c.start, c.decoration)), StartTicker(Interval(c))];
    var fx := CancelIfLive(s) + run;
    TickersAppend(Live(s), CancelIfLive(s), run);
    assert Tickers(0, run) == Tickers(0, run[1..]) == Tickers(1, []);
    (s.(currentValue := c.start, tickerActive := true), fx)
  }

  /** One tick: the value moves one step; the tick that reaches or passes the
      end value clamps it to the end value, stops the interval and marks the
      counter as animated. */
  function TickState(c: Counter, s: CounterState): (t: CounterState)
    requires ValidCounter(c)
    ensures !s.tickerActive ==> t == s
    ensures s.tickerActive && Between(c.start, c.end, s.currentValue) ==> Between(c.start, c.end, t.currentValue)
    ensures s.tickerActive ==>
              (t.tickerActive <==> (var v := s.currentValue + StepSize(c);
                                    if c.start < c.end then v < c.end else v > c.end))
    ensures s.tickerActive && t.tickerActive ==> t == s.(currentValue := s.currentValue + StepSize(c))
    ensures s.tickerActive && !t.tickerActive ==>
              t == s.(currentValue := c.end, tickerActive := false, hasAnimated := true)
  {
    if !s.tickerActive then s
    else
      var v := s.currentValue + StepSize(c);
      var finished := if c.start < c.end then v >= c.end else v <= c.end;
      if finished then s.(currentValue := c.end, tickerActive := false, hasAnimated := true)
      else s.(currentValue := v)
  }

  /** A tick writes the new value; the finishing tick cancels the interval
      before writing. */
  function TickStep(c: Counter, s: CounterState): (r: (CounterState, seq<Effect>))
    requires ValidCounter(c)
    ensures r.0 == TickState(c, s)
    ensures !s.tickerActive ==> r.1 == []
    ensures s.tickerActive ==> |r.1| >= 1 && r.1[|r.1| - 1] == WriteText(Render(r.0.currentValue, c.decoration))
    ensures Tickers(Live(s), r.1) == Some(Live(r.0))
  {
    var t := TickState(c, s);
    if !s.tickerActive then (t, [])
    else if !t.tickerActive then
      var fx := [CancelTicker, WriteText(Render(t.currentValue, c.decoration))];
      assert Tickers(1, fx) == Tickers(0, fx[1..]) == Tickers(0, []);
      (t, fx)
    else
      (t, [WriteText(Render(t.currentValue, c.decoration))])
  }

  // ---------------------------------------------------------------------------
  // Visibility notifications
  // ---------------------------------------------------------------------------

  /** The intersecting branch, once direction and hidden side are known.
      Outside `Always` mode a start is scheduled exactly when the restart rule
      holds and nothing else is done; in `Always` mode a changed ratio cancels
      the interval and sets the value to the same fraction of the way from
      start to end, and an unchanged ratio does nothing. Either way the hidden
      flag is cleared and the ratio recorded. */
  function OnVisible(c: Counter, s: CounterState, dir: Direction, ratio: real): (r: (CounterState, seq<Effect>))
    requires ValidCounter(c)
    ensures c.config.repeat != Always ==>
              && (r.1 == [ScheduleStart(c.config.delay)] <==>
                    (|| !s.hasAnimated
                     || (c.config.repeat == OnReappear && s.isFullyHidden)
                     || (c.config.repeat == OnReverseScroll && s.hasAnimated
                         && s.lastScrollDirection.Some? && dir == Opposite(s.lastScrollDirection.value)
                         && s.lastHiddenSide == s.initialHiddenSide)))
              && (r.1 == [] || r.1 == [ScheduleStart(c.config.delay)])
              && r.0.currentValue == s.currentValue
              && r.0.tickerActive == s.tickerActive
    ensures c.config.repeat == Always && ratio != s.lastIntersectionRatio ==>
              && r.0.currentValue == c.start + (c.end - c.start) * ratio
              && !r.0.tickerActive
              && |r.1| >= 1 && r.1[|r.1| - 1] == WriteText(Render(r.0.currentValue, c.decoration))
    ensures c.config.repeat == Always && ratio == s.lastIntersectionRatio ==>
              r.1 == [] && r.0.currentValue == s.currentValue
    ensures !r.0.isFullyHidden && r.0.lastIntersectionRatio == ratio
    ensures r.0.hasAnimated == s.hasAnimated && r.0.initialHiddenSide == s.initialHiddenSide
    ensures r.0.lastOffset == s.lastOffset
    ensures r.0.lastHiddenSide == s.lastHiddenSide && r.0.lastScrollDirection == s.lastScrollDirection
    ensures r.0.pendingStarts == s.pendingStarts + (if r.1 == [ScheduleStart(c.config.delay)] then 1 else 0)
    ensures Tickers(Live(s), r.1) == Some(Live(r.0))
  {
    var (s1, fx) :=
      if c.config.repeat == Always then
        if ratio != s.lastIntersectionRatio then
          var v := c.start + (c.end - c.start) * ratio;
          TickersAppend(Live(s), CancelIfLive(s), [WriteText(Render(v, c.decoration))]);
          (s.(currentValue := v, tickerActive := false), CancelIfLive(s) + [WriteText(Render(v, c.decoration))])
        else (s, [])
      else if ShouldAnimate(c.config.repeat, s, dir) then
        (s.(pendingStarts := s.pendingStarts + 1), [ScheduleStart(c.config.delay)])
      else (s, []);
    (s1.(isFullyHidden := false, lastIntersectionRatio := ratio), fx)
  }

  /** In `Always` mode the value set on appearance lies between start and end
      whenever the ratio is a fraction. */
  lemma VisibleValueBetween(c: Counter, ratio: real)
    requires 0.0 <= ratio <= 1.0
    ensures Between(c.start, c.end, c.start + (c.end - c.start) * ratio)
  {
    var d := c.end - c.start;
    assert d * ratio + d * (1.0 - ratio) == d;
    if d >= 0.0 {
      var rest := 1.0 - ratio;
      assert d * ratio >= 0.0 && d * rest >= 0.0;
    } else {
      var e, rest := -d, 1.0 - ratio;
      assert e * ratio >= 0.0 && e * rest >= 0.0;
    }
  }

  /** The non-intersecting branch. Only a known side changes anything: the
      element is marked fully hidden and the side recorded; in `Always` mode
      the start value is also written at once and the interval cancelled. */
  function OnHidden(c: Counter, s: CounterState, side: Option<Side>): (r: (CounterState, seq<Effect>))
    requires ValidCounter(c)
    ensures side.None? ==> r == (s, [])
    ensures side.Some? ==>
              && r.0.isFullyHidden && r.0.lastHiddenSide == side
              && r.0.lastIntersectionRatio == s.lastIntersectionRatio
              && (c.config.repeat == Always ==>
                    && r.0.currentValue == c.start && !r.0.tickerActive
                    && |r.1| >= 1 && r.1[0] == WriteText(Render(c.start, c.decoration)))
              && (c.config.repeat != Always ==>
                    r.1 == [] && r.0.currentValue == s.currentValue && r.0.tickerActive == s.tickerActive)
    ensures r.0.hasAnimated == s.hasAnimated && r.0.initialHiddenSide == s.initialHiddenSide
    ensures r.0.lastOffset == s.lastOffset && r.0.pendingStarts == s.pendingStarts
    ensures Tickers(Live(s), r.1) == Some(Live(r.0))
  {
    if side.None? then (s, [])
    else
      var s1 := s.(isFullyHidden := true, lastHiddenSide := side);
      if c.config.repeat == Always then
        TickersAppend(Live(s), [WriteText(Render(c.start, c.decoration))], CancelIfLive(s));
        (s1.(currentValue := c.start, tickerActive := false),
         [WriteText(Render(c.start, c.decoration))] + CancelIfLive(s))
      else (s1, [])
  }

  /** One visibility notification: the scroll direction is derived from the
      offset, which is recorded, and the hidden side from the geometry; the
      first hidden side may be latched; then the appearance or disappearance
      branch runs, and the direction is recorded whatever the branch. */
  function ObserveStep(c: Counter, s: CounterState, intersecting: bool, ratio: real,
                       offset: real, rect: Rect, f: Frame): (r: (CounterState, seq<Effect>))
    requires ValidCounter(c)
    ensures r.0.lastOffset == offset
    ensures r.0.lastScrollDirection == Some(ScrollDirection(c.inContainer, s.lastOffset, offset))
    ensures s.initialHiddenSide.Some? ==> r.0.initialHiddenSide == s.initialHiddenSide
    ensures !intersecting && HiddenSide(c.inContainer, rect, f).None? ==>
              r == (s.(lastOffset := offset,
                       lastScrollDirection := Some(ScrollDirection(c.inContainer, s.lastOffset, offset))), [])
    ensures c.config.repeat == RepeatMode.None && s.hasAnimated ==> r.1 == []
    ensures intersecting && c.config.repeat != Always ==>
              && (r.1 == [ScheduleStart(c.config.delay)] <==>
                    ShouldAnimate(c.config.repeat, s, ScrollDirection(c.inContainer, s.lastOffset, offset)))
              && r.0.pendingStarts == s.pendingStarts + (if r.1 == [] then 0 else 1)
    ensures intersecting ==> !r.0.isFullyHidden && r.0.lastHiddenSide == s.lastHiddenSide
    ensures !intersecting && HiddenSide(c.inContainer, rect, f).Some? ==>
              && r.0.isFullyHidden && r.0.lastHiddenSide == HiddenSide(c.inContainer, rect, f)
              && (c.config.repeat == Always ==> r.0.currentValue == c.start && !r.0.tickerActive)
    ensures r.0.hasAnimated == s.hasAnimated
    ensures Tickers(Live(s), r.1) == Some(Live(r.0))
  {
    var dir := ScrollDirection(c.inContainer, s.lastOffset, offset);
    var side := HiddenSide(c.inContainer, rect, f);
    var s1 := s.(lastOffset := offset, initialHiddenSide := LatchInitialSide(s, intersecting, side));
    var (s2, fx) := if intersecting then OnVisible(c, s1, dir, ratio) else OnHidden(c, s1, side);
    (s2.(lastScrollDirection := Some(dir)), fx)
  }

  /** The expiry of a scheduled start delay starts a run; with no delay pending
      (which the page cannot produce) nothing happens. */
  function DelayStep(c: Counter, s: CounterState): (r: (CounterState, seq<Effect>))
    requires ValidCounter(c)
    ensures s.pendingStarts > 0 ==>
              && r.0.tickerActive && r.0.currentValue == c.start
              && r.0.pendingStarts == s.pendingStarts - 1
              && r.0.hasAnimated == s.hasAnimated
    ensures s.pendingStarts == 0 ==> r == (s, [])
    ensures Tickers(Live(s), r.1) == Some(Live(r.0))
  {
    if s.pendingStarts == 0 then (s, [])
    else StartAnimation(c, s.(pendingStarts := s.pendingStarts - 1))
  }

  function Step(c: Counter, s: CounterState, e: Event): (r: (CounterState, seq<Effect>))
    requires ValidCounter(c)
    ensures Tickers(Live(s), r.1) == Some(Live(r.0))
    ensures s.hasAnimated ==> r.0.hasAnimated
    ensures s.initialHiddenSide.Some? ==> r.0.initialHiddenSide == s.initialHiddenSide
  {
    match e
    case Observe(intersecting, ratio, offset, rect, f) => ObserveStep(c, s, intersecting, ratio, offset, rect, f)
    case DelayElapsed => DelayStep(c, s)
    case Tick => TickStep(c, s)
  }

  /** A sequence of events, in delivery order. */
  function Run(c: Counter, s: CounterState, events: seq<Event>): (r: (CounterState, seq<Effect>))
    requires ValidCounter(c)
    decreases |events|
  {
    if |events| == 0 then (s, [])
    else
      var (s1, fx1) := Step(c, s, events[0]);
      var (s2, fx2) := Run(c, s1, events[1..]);
      (s2, fx1 + fx2)
  }

  // ---------------------------------------------------------------------------
  // Properties of runs
  // ---------------------------------------------------------------------------

  /** While an interval is live the value lies between start and end, and in
      `Always` mode no interval is ever live or pending. */
  predicate Inv(c: Counter, s: CounterState) {
    && (s.tickerActive ==> Between(c.start, c.end, s.currentValue))
    && (c.config.repeat == Always ==> !s.tickerActive && s.pendingStarts == 0)
  }

  lemma StepPreservesInv(c: Counter, s: CounterState, e: Event)
    requires ValidCounter(c) && Inv(c, s)
    ensures Inv(c, Step(c, s, e).0)
  {
    match e
    case Observe(intersecting, ratio, offset, rect, f) =>
    case DelayElapsed =>
    case Tick =>
  }

  /** The invariant holds after any sequence of events. */
  lemma {:induction false} RunPreservesInv(c: Counter, s: CounterState, events: seq<Event>)
    requires ValidCounter(c) && Inv(c, s)
    ensures Inv(c, Run(c, s, events).0)
    decreases |events|
  {
    if |events| > 0 {
      StepPreservesInv(c, s, events[0]);
      RunPreservesInv(c, Step(c, s, events[0]).0, events[1..]);
    }
  }

  /** At most one interval is ever live: replaying all effects of a run never
      starts an interval while another is live, and leaves exactly as many
      live as the final state records. */
  lemma {:induction false} RunSingleTicker(c: Counter, s: CounterState, events: seq<Event>)
    requires ValidCounter(c)
    ensures Tickers(Live(s), Run(c, s, events).1) == Some(Live(Run(c, s, events).0))
    decreases |events|
  {
    if |events| > 0 {
      var (s1, fx1) := Step(c, s, events[0]);
      RunSingleTicker(c, s1, events[1..]);
      TickersAppend(Live(s), fx1, Run(c, s1, events[1..]).1);
    }
  }

  /** Once recorded, the first hidden side stays fixed for the rest of any run,
      and a completed animation stays completed. */
  lemma {:induction false} RunKeepsHistory(c: Counter, s: CounterState, events: seq<Event>)
    requires ValidCounter(c)
    ensures s.initialHiddenSide.Some? ==> Run(c, s, events).0.initialHiddenSide == s.initialHiddenSide
    ensures s.hasAnimated ==> Run(c, s, events).0.hasAnimated
    decreases |events|
  {
    if |events| > 0 {
      RunKeepsHistory(c, Step(c, s, events[0]).0, events[1..]);
    }
  }

  /** In `None` mode, once a run has completed no start is ever scheduled
      again, whatever the events. */
  lemma {:induction false} OnceModeSchedulesNothing(c: Counter, s: CounterState, events: seq<Event>)
    requires ValidCounter(c) && c.config.repeat == RepeatMode.None && s.hasAnimated
    ensures forall i :: 0 <= i < |Run(c, s, events).1| ==> !Run(c, s, events).1[i].ScheduleStart?
    decreases |events|
  {
    if |events| > 0 {
      var (s1, fx1) := Step(c, s, events[0]);
      StepSchedulesNothing(c, s, events[0]);
      OnceModeSchedulesNothing(c, s1, events[1..]);
      var rest := Run(c, s1, events[1..]).1;
      assert Run(c, s, events).1 == fx1 + rest;
    }
  }

  /** One event of `OnceModeSchedulesNothing`. */
  lemma StepSchedulesNothing(c: Counter, s: CounterState, e: Event)
    requires ValidCounter(c) && c.config.repeat == RepeatMode.None && s.hasAnimated
    ensures forall i :: 0 <= i < |Step(c, s, e).1| ==> !Step(c, s, e).1[i].ScheduleStart?
  {
    match e
    case Observe(_, _, _, _, _) =>
    case DelayElapsed =>
    case Tick =>
  }

  /** `k` consecutive ticks. */
  function Ticks(c: Counter, s: CounterState, k: nat): CounterState
    requires ValidCounter(c)
  {
    if k == 0 then s else TickState(c, Ticks(c, s, k - 1))
  }

  /** Where a run stands after `k` undisturbed steps, short of the last one. */
  lemma StepsShortOfEnd(c: Counter, k: nat)
    requires ValidCounter(c) && c.start != c.end && k < TotalFrames(c)
    ensures var v := c.start + k as real * StepSize(c);
            if c.start < c.end then v < c.end else v > c.end
  {
    var step, frames := StepSize(c), TotalFrames(c) as real;
    var v := c.start + k as real * step;
    var d := k as real - frames;
    assert step * frames == c.end - c.start;
    assert v - c.end == d * step;
    if c.start < c.end {
      assert d * step < 0.0;
    } else {
      var down := -step;
      assert d * down < 0.0;
    }
  }

  /** A run that starts undisturbed moves by one step per tick, is still live
      before tick `TotalFrames`, and has finished by then exactly on the end
      value (at the first tick when start and end coincide). */
  lemma {:induction false} RunFinishesOnTime(c: Counter, s: CounterState, k: nat)
    requires ValidCounter(c) && s.tickerActive && s.currentValue == c.start
    requires k <= TotalFrames(c)
    ensures c.start != c.end && k < TotalFrames(c) ==>
              Ticks(c, s, k).tickerActive && Ticks(c, s, k).currentValue == c.start + k as real * StepSize(c)
    ensures (k == TotalFrames(c) || (c.start == c.end && k >= 1)) ==>
              && !Ticks(c, s, k).tickerActive
              && Ticks(c, s, k).currentValue == c.end
              && Ticks(c, s, k).hasAnimated
  {
    if k > 0 {
      RunFinishesOnTime(c, s, k - 1);
      var p := Ticks(c, s, k - 1);
      if c.start == c.end {
        if k == 1 {
          FinalTick(c, p);
        }
      } else if k < TotalFrames(c) {
        MiddleTick(c, p, k);
      } else {
        LastTick(c, p);
      }
    }
  }

  /** A tick that lands exactly on the end value finishes the run. */
  lemma FinalTick(c: Counter, p: CounterState)
    requires ValidCounter(c) && p.tickerActive && p.currentValue + StepSize(c) == c.end
    ensures TickState(c, p) == p.(currentValue := c.end, tickerActive := false, hasAnimated := true)
  {
  }

  /** The tick of frame `TotalFrames` lands on the end value and finishes the
      run. */
  lemma LastTick(c: Counter, p: CounterState)
    requires ValidCounter(c) && p.tickerActive
    requires p.currentValue == c.start + (TotalFrames(c) - 1) as real * StepSize(c)
    ensures TickState(c, p) == p.(currentValue := c.end, tickerActive := false, hasAnimated := true)
  {
    var n, step := TotalFrames(c) as real, StepSize(c);
    assert (n - 1.0) * step + step == n * step;
    FinalTick(c, p);
  }

  /** A tick before the last frame moves the value by one step and keeps the
      run going. */
  lemma MiddleTick(c: Counter, p: CounterState, k: nat)
    requires ValidCounter(c) && c.start != c.end && 1 <= k < TotalFrames(c)
    requires p.tickerActive && p.currentValue == c.start + (k - 1) as real * StepSize(c)
    ensures TickState(c, p).tickerActive
    ensures TickState(c, p).currentValue == c.start + k as real * StepSize(c)
  {
    var step := StepSize(c);
    assert (k - 1) as real * step + step == k as real * step;
    StepsShortOfEnd(c, k);
  }
}

=== FILE: counter_options.dfy ===
/** Resolution of the counter's options (percent, duration, delay, repeat)
    into a configuration that is always usable: malformed fields fall back to
    documented defaults and leave an advisory warning behind. */
module CounterOptions {
  import opened Wrappers

  /** A numeric option as the caller may pass it. `NaN` is the number NaN;
      anything that is neither a number nor a string is `Undefined`. */
  datatype RawNumber = Undefined | Number(value: real) | NaN | Text(text: string)

  datatype Param = Percent | Duration | Delay

  /** The advisory diagnostics (`console.warn`) the resolver emits. */
  datatype Warning =
    | CoercedFromString(param: Param, parsed: real)
    | InvalidReplaced(param: Param)
    | DurationNotPositive(duration: real)
    | DelayNegative(delay: real)
    | UnknownRepeat

  /** A resolved value together with the warnings produced on the way. */
  datatype Resolved<T> = Resolved(value: T, warnings: seq<Warning>)

  /** The four repeat policies; `RepeatMode.None` is the default. */
  datatype RepeatMode = None | Always | OnReappear | OnReverseScroll

  /** A fully resolved configuration. */
  datatype Config = Config(percent: real, duration: real, delay: real, repeat: RepeatMode)

  predicate ValidConfig(c: Config) {
    c.duration > 0.0 && c.delay >= 0.0
  }

  const DefaultPercent: real := 70.0
  const DefaultDuration: real := 2000.0
  const DefaultDelay: real := 0.0

  /** `parseFloat` is an external primitive; a parser returns `None` for NaN. */
  type Parser = string -> Option<real>

  /** A number that is not NaN is kept; a string that parses gives its parsed
      value (with a warning); anything else gives the default (with a
      warning). */
  function ParseNumber(raw: RawNumber, default: real, param: Param, parse: Parser): (r: Resolved<real>)
    ensures raw.Number? ==> r == Resolved(raw.value, [])
    ensures raw.Text? && parse(raw.text).Some? ==>
              r.value == parse(raw.text).value && r.warnings == [CoercedFromString(param, r.value)]
    ensures raw.Undefined? || raw.NaN? || (raw.Text? && parse(raw.text).None?) ==>
              r == Resolved(default, [InvalidReplaced(param)])
  {
    match raw
    case Number(v) => Resolved(v, [])
    case Text(t) =>
      (match parse(t)
       case Some(v) => Resolved(v, [CoercedFromString(param, v)])
       case None => Resolved(default, [InvalidReplaced(param)]))
    case _ => Resolved(default, [InvalidReplaced(param)])
  }

  /** The percent option: any parsed value is accepted, negative included. */
  function ResolvePercent(raw: RawNumber, parse: Parser): (r: Resolved<real>)
    ensures raw.Number? ==> r == Resolved(raw.value, [])
    ensures raw.Text? && parse(raw.text).Some? ==>
              r == Resolved(parse(raw.text).value, [CoercedFromString(Percent, parse(raw.text).value)])
    ensures raw.Undefined? || raw.NaN? || (raw.Text? && parse(raw.text).None?) ==>
              r == Resolved(DefaultPercent, [InvalidReplaced(Percent)])
  {
    ParseNumber(raw, DefaultPercent, Percent, parse)
  }

  /** The duration option: the parsed value when strictly positive, else the
      default 2000 ms with a warning distinct from the type warning. */
  function ResolveDuration(raw: RawNumber, parse: Parser): (r: Resolved<real>)
    ensures r.value > 0.0
    ensures var p := ParseNumber(raw, DefaultDuration, Duration, parse);
            && (p.value > 0.0 ==> r == p)
            && (p.value <= 0.0 ==> r.value == DefaultDuration && r.warnings == p.warnings + [DurationNotPositive(p.value)])
  {
    var p := ParseNumber(raw, DefaultDuration, Duration, parse);
    if p.value > 0.0 then p
    else Resolved(DefaultDuration, p.warnings + [DurationNotPositive(p.value)])
  }

  /** The delay option: the parsed value when non-negative, else 0 ms with a
      warning. */
  function ResolveDelay(raw: RawNumber, parse: Parser): (r: Resolved<real>)
    ensures r.value >= 0.0
    ensures var p := ParseNumber(raw, DefaultDelay, Delay, parse);
            && (p.value >= 0.0 ==> r == p)
            && (p.value < 0.0 ==> r.value == DefaultDelay && r.warnings == p.warnings + [DelayNegative(p.value)])
  {
    var p := ParseNumber(raw, DefaultDelay, Delay, parse);
    if p.value >= 0.0 then p
    else Resolved(DefaultDelay, p.warnings + [DelayNegative(p.value)])
  }

  /** The string value of each enum member. */
  function Name(m: RepeatMode): string {
    match m
    case None => "none"
    case Always => "always"
    case OnReappear => "onReappear"
    case OnReverseScroll => "onReverseScroll"
  }

  /** `toLowerCase` restricted to ASCII letters. No non-ASCII character
      lower-cases to a letter occurring in the mode names, so this is exact
      for the comparisons below. */
  function LowerChar(c: char): char {
    if 'A' <= c <= 'Z' then (c as int - 'A' as int + 'a' as int) as char else c
  }

  function Lower(s: string): (r: string)
    ensures |r| == |s|
    ensures forall i :: 0 <= i < |s| ==> r[i] == LowerChar(s[i])
  {
    if |s| == 0 then [] else [LowerChar(s[0])] + Lower(s[1..])
  }

  /** The enum members in declaration order (the order of `Object.values`). */
  const Modes: seq<RepeatMode> := [RepeatMode.None, Always, OnReappear, OnReverseScroll]

  /** Searches `modes` in order for a member whose name satisfies `matches`.
      The contract does not say which member is found when several qualify:
      for the matchers used below at most one does (`FoldedNamesDistinct`). */
  function FirstMatch(modes: seq<RepeatMode>, matches: string -> bool): (r: Option<RepeatMode>)
    ensures r.Some? ==> r.value in modes && matches(Name(r.value))
    ensures r.None? ==> forall m :: m in modes ==> !matches(Name(m))
  {
    if |modes| == 0 then Option.None
    else if matches(Name(modes[0])) then Some(modes[0])
    else FirstMatch(modes[1..], matches)
  }

  /** The repeat option: an exact match against the enum's values wins, then a
      case-insensitive match; otherwise `None`, with a warning. */
  function ResolveRepeat(raw: Option<string>): (r: Resolved<RepeatMode>)
    ensures r.warnings == [] || r == Resolved(RepeatMode.None, [UnknownRepeat])
    ensures r.warnings == [] ==> raw.Some? && Lower(raw.value) == Lower(Name(r.value))
    ensures raw.None? ==> r == Resolved(RepeatMode.None, [UnknownRepeat])
  {
    match raw
    case None => Resolved(RepeatMode.None, [UnknownRepeat])
    case Some(s) =>
      match FirstMatch(Modes, n => n == s)
      case Some(m) => Resolved(m, [])
      case None =>
        match FirstMatch(Modes, n => Lower(n) == Lower(s))
        case Some(m) => Resolved(m, [])
        case None => Resolved(RepeatMode.None, [UnknownRepeat])
  }

  /** Lower-casing separates the four mode names. */
  lemma FoldedNamesDistinct(m: RepeatMode, m': RepeatMode)
    ensures Lower(Name(m)) == Lower(Name(m')) ==> m == m'
  {
  }

  lemma ModeListed(m: RepeatMode)
    ensures m in Modes
  {
    match m
    case None => assert Modes[0] == m;
    case Always => assert Modes[1] == m;
    case OnReappear => assert Modes[2] == m;
    case OnReverseScroll => assert Modes[3] == m;
  }

  /** The resolved mode is `m` exactly when the given text equals `m`'s name
      up to ASCII case; with no such `m` (or no text) it is `None` with a
      warning. */
  lemma ResolveRepeatSpec(raw: Option<string>, m: RepeatMode)
    ensures raw.Some? ==> (Lower(raw.value) == Lower(Name(m)) <==> ResolveRepeat(raw) == Resolved(m, []))
    ensures (raw.None? || forall m' :: Lower(raw.value) != Lower(Name(m'))) ==>
              ResolveRepeat(raw) == Resolved(RepeatMode.None, [UnknownRepeat])
  {
    forall m': RepeatMode ensures m' in Modes {
      ModeListed(m');
    }
    if raw.Some? {
      var s := raw.value;
      match FirstMatch(Modes, n => n == s)
      case Some(e) =>
        FoldedNamesDistinct(e, m);
      case None =>
        match FirstMatch(Modes, n => Lower(n) == Lower(s))
        case Some(f) =>
          FoldedNamesDistinct(f, m);
        case None =>
    }
  }

  /** A mode's own name resolves to that mode, without a warning. */
  lemma ResolveRepeatName(m: RepeatMode)
    ensures ResolveRepeat(Some(Name(m))) == Resolved(m, [])
  {
    ResolveRepeatSpec(Some(Name(m)), m);
  }

  /** All four options together. */
  function Resolve(percent: RawNumber, duration: RawNumber, delay: RawNumber, repeat: Option<string>, parse: Parser): (r: Resolved<Config>)
    ensures ValidConfig(r.value)
    ensures r.value.percent == ResolvePercent(percent, parse).value
    ensures r.value.duration == ResolveDuration(duration, parse).value
    ensures r.value.delay == ResolveDelay(delay, parse).value
    ensures r.value.repeat == ResolveRepeat(repeat).value
  {
    var p, du, de, re := ResolvePercent(percent, parse), ResolveDuration(duration, parse),
                         ResolveDelay(delay, parse), ResolveRepeat(repeat);
    Resolved(Config(p.value, du.value, de.value, re.value),
             p.warnings + du.warnings + de.warnings + re.warnings)
  }
}

=== FILE: counter_text.dfy ===
/** The counter's display text: trimming, locating the first number with the
    pattern `-?\d*\.?\d+`, splitting the text into that number and its
    decoration, and rendering a rounded value back with the decoration. */
module CounterText {
  import opened Wrappers
  import opened JsNumbers

  // ---------------------------------------------------------------------------
  // Trimming
  // ---------------------------------------------------------------------------

  /** The characters `String.prototype.trim` strips: the ECMAScript WhiteSpace
      and LineTerminator code points. */
  predicate IsSpace(c: char) {
    var u := c as int;
    || 0x09 <= u <= 0x0D                          // tab, line feed, vertical tab, form feed, carriage return
    || u == 0x20 || u == 0xA0 || u == 0x1680      // space, no-break space, ogham space mark
    || 0x2000 <= u <= 0x200A                      // en quad .. hair space
    || u == 0x2028 || u == 0x2029                 // line and paragraph separators
    || u == 0x202F || u == 0x205F || u == 0x3000  // narrow no-break, medium mathematical, ideographic
    || u == 0xFEFF                                // byte order mark
  }

  /** The number of leading characters from `i` on that are spaces. */
  function LeadingSpaces(s: string, i: nat): (n: nat)
    requires i <= |s|
    ensures i + n <= |s|
    ensures forall k :: i <= k < i + n ==> IsSpace(s[k])
    ensures i + n == |s| || !IsSpace(s[i + n])
    decreases |s| - i
  {
    if i < |s| && IsSpace(s[i]) then 1 + LeadingSpaces(s, i + 1) else 0
  }

  /** The end of `s[..j]` once its trailing spaces are dropped. */
  function TrimmedEnd(s: string, j: nat): (e: nat)
    requires j <= |s|
    ensures e <= j
    ensures forall k :: e <= k < j ==> IsSpace(s[k])
    ensures e == 0 || !IsSpace(s[e - 1])
  {
    if j > 0 && IsSpace(s[j - 1]) then TrimmedEnd(s, j - 1) else j
  }

  /** `text.trim()`: the slice of `s` left after removing the leading and
      trailing spaces. */
  function Trim(s: string): (r: string)
    ensures exists a, b :: 0 <= a <= b <= |s| && r == s[a..b]
                        && (forall k :: 0 <= k < a ==> IsSpace(s[k]))
                        && (forall k :: b <= k < |s| ==> IsSpace(s[k]))
    ensures |r| > 0 ==> !IsSpace(r[0]) && !IsSpace(r[|r| - 1])
  {
    var a := LeadingSpaces(s, 0);
    var b := TrimmedEnd(s, |s|);
    if b <= a then
      assert s[a..a] == [];
      []
    else
      s[a..b]
  }

  // ---------------------------------------------------------------------------
  // The number pattern
  // ---------------------------------------------------------------------------

  /** `s[a..b]` is a match of `\d*\.?\d+`: only digits and dots, at most one
      dot, and a digit at the end (which rules out a trailing dot and the
      empty text). */
  predicate BodyAt(s: string, a: nat, b: nat)
    requires a <= b <= |s|
  {
    && a < b
    && IsDigit(s[b - 1])
    && (forall i :: a <= i < b ==> IsDigit(s[i]) || s[i] == '.')
    && (forall i, j :: a <= i < j < b && s[i] == '.' ==> s[j] != '.')
  }

  predicate IsBody(t: string) {
    BodyAt(t, 0, |t|)
  }

  /** The two views of a body agree. */
  lemma SliceBody(s: string, a: nat, b: nat)
    requires a <= b <= |s|
    ensures IsBody(s[a..b]) <==> BodyAt(s, a, b)
  {
    var t := s[a..b];
    assert forall i :: 0 <= i < |t| ==> t[i] == s[a + i];
    if BodyAt(s, a, b) {
      assert forall i, j :: 0 <= i < j < |t| && t[i] == '.' ==> t[j] != '.' by {
        forall i, j | 0 <= i < j < |t| && t[i] == '.' ensures t[j] != '.' {
          assert s[a + i] == '.';
        }
      }
    }
    if IsBody(t) {
      forall i, j | a <= i < j < b && s[i] == '.' ensures s[j] != '.' {
        assert t[i - a] == '.';
      }
    }
  }

  /** A full match of `-?\d*\.?\d+`. */
  predicate IsNumberLiteral(t: string) {
    IsBody(t) || (|t| >= 2 && t[0] == '-' && IsBody(t[1..]))
  }

  /** The length of the maximal run of digits starting at `i`. */
  function DigitRun(s: string, i: nat): (n: nat)
    requires i <= |s|
    ensures i + n <= |s|
    ensures forall k :: i <= k < i + n ==> IsDigit(s[k])
    ensures i + n == |s| || !IsDigit(s[i + n])
    decreases |s| - i
  {
    if i < |s| && IsDigit(s[i]) then 1 + DigitRun(s, i + 1) else 0
  }

  /** A run of digits from `a` to `b` is covered by the maximal run at `a`. */
  lemma DigitRunCovers(s: string, a: nat, b: nat)
    requires a <= b <= |s|
    requires forall k :: a <= k < b ==> IsDigit(s[k])
    ensures DigitRun(s, a) >= b - a
  {
  }

  /** The length of the match of `\d*\.?\d+` at `q`, or 0. With the greedy
      quantifiers tried in priority order, the regular-expression engine
      takes every digit, then a dot if digits follow it, then those digits;
      when no digit follows the dot it gives back the dot. */
  function BodyLength(s: string, q: nat): (n: nat)
    requires q <= |s|
    ensures q + n <= |s|
  {
    var k := DigitRun(s, q);
    if q + k < |s| && s[q + k] == '.' && DigitRun(s, q + k + 1) > 0
    then k + 1 + DigitRun(s, q + k + 1)
    else k
  }

  /** What the engine takes at `q` is a body, and no longer body starts at
      `q`. */
  lemma BodyLengthSpec(s: string, q: nat)
    requires q <= |s|
    ensures BodyLength(s, q) > 0 ==> IsBody(s[q..q + BodyLength(s, q)])
    ensures forall j :: q < j <= |s| && IsBody(s[q..j]) ==> j <= q + BodyLength(s, q)
  {
    BodyLengthSound(s, q);
    SliceBody(s, q, q + BodyLength(s, q));
    forall j | q < j <= |s| && IsBody(s[q..j]) ensures j <= q + BodyLength(s, q) {
      SliceBody(s, q, j);
      BodyLengthLongest(s, q, j);
    }
  }

  lemma BodyLengthSound(s: string, q: nat)
    requires q <= |s|
    ensures BodyLength(s, q) > 0 ==> BodyAt(s, q, q + BodyLength(s, q))
  {
    var k := DigitRun(s, q);
    var e := q + BodyLength(s, q);
    if BodyLength(s, q) > 0 {
      assert forall i :: q <= i < e && s[i] == '.' ==> i == q + k;
    }
  }

  lemma BodyLengthLongest(s: string, q: nat, j: nat)
    requires q < j <= |s| && BodyAt(s, q, j)
    ensures j <= q + BodyLength(s, q)
  {
    var k := DigitRun(s, q);
    if forall i :: q <= i < j ==> IsDigit(s[i]) {
      DigitRunCovers(s, q, j);
    } else {
      var d :| q <= d < j && !IsDigit(s[d]);
      // The only dot is the first character after the digit run.
      assert q + k <= d;
      assert q + k < j && s[q + k] == '.';
      // Everything after it is a digit, and there is at least one.
      assert forall i :: q + k + 1 <= i < j ==> IsDigit(s[i]);
      assert q + k + 1 < j;
      DigitRunCovers(s, q + k + 1, j);
    }
  }

  /** No literal starts at position `i`. */
  predicate NoLiteralAt(s: string, i: nat)
    requires i <= |s|
  {
    forall j :: i < j <= |s| ==> !IsNumberLiteral(s[i..j])
  }

  /** No literal starting at `p` extends past `e`. */
  predicate LongestAt(s: string, p: nat, e: nat)
    requires p <= e <= |s|
  {
    forall j :: e < j <= |s| ==> !IsNumberLiteral(s[p..j])
  }

  /** The length of the match of `-?\d*\.?\d+` starting exactly at `p`, or 0
      when none starts there. */
  function MatchLength(s: string, p: nat): (n: nat)
    requires p <= |s|
    ensures p + n <= |s|
  {
    if p < |s| && s[p] == '-' then
      var b := BodyLength(s, p + 1);
      if b > 0 then b + 1 else 0
    else BodyLength(s, p)
  }

  /** When non-zero, the match at `p` is a literal and the longest one
      starting at `p`. */
  lemma MatchLengthSpec(s: string, p: nat)
    requires p <= |s|
    ensures MatchLength(s, p) > 0 ==> IsNumberLiteral(s[p..p + MatchLength(s, p)])
    ensures forall j :: p < j <= |s| && IsNumberLiteral(s[p..j]) ==> j <= p + MatchLength(s, p)
    ensures MatchLength(s, p) == 0 ==> NoLiteralAt(s, p)
    ensures LongestAt(s, p, p + MatchLength(s, p))
  {
    if p < |s| && s[p] == '-' {
      SignedMatch(s, p);
    } else {
      BodyLengthSpec(s, p);
      forall j | p < j <= |s| && IsNumberLiteral(s[p..j]) ensures j <= p + BodyLength(s, p) {
        UnsignedLiteral(s, p, j);
      }
    }
  }

  /** A literal starting with a minus sign is the sign followed by a body. */
  lemma SignedMatch(s: string, p: nat)
    requires p < |s| && s[p] == '-'
    ensures BodyLength(s, p + 1) > 0 ==> IsNumberLiteral(s[p..p + 1 + BodyLength(s, p + 1)])
    ensures forall j :: p < j <= |s| && IsNumberLiteral(s[p..j]) ==> j <= p + 1 + BodyLength(s, p + 1)
    ensures forall j :: p < j <= |s| && IsNumberLiteral(s[p..j]) ==> BodyLength(s, p + 1) > 0
  {
    var b := BodyLength(s, p + 1);
    BodyLengthSpec(s, p + 1);
    forall j | p < j <= |s| && IsNumberLiteral(s[p..j]) ensures j <= p + 1 + b && b > 0 {
      SignedLiteral(s, p, j);
    }
    if b > 0 {
      SignedBody(s, p, p + 1 + b);
    }
  }

  /** Without a leading minus sign, a literal is a body. */
  lemma UnsignedLiteral(s: string, p: nat, j: nat)
    requires p < j <= |s| && s[p] != '-' && IsNumberLiteral(s[p..j])
    ensures IsBody(s[p..j])
  {
    assert s[p..j][0] == s[p];
  }

  /** A minus sign followed by a body is a literal. */
  lemma SignedBody(s: string, p: nat, j: nat)
    requires p < j <= |s| && s[p] == '-' && IsBody(s[p + 1..j])
    ensures IsNumberLiteral(s[p..j])
  {
    var t := s[p..j];
    assert t[0] == '-' && t[1..] == s[p + 1..j];
  }

  /** Past a leading minus sign, a literal is a body. */
  lemma SignedLiteral(s: string, p: nat, j: nat)
    requires p < j <= |s| && s[p] == '-' && IsNumberLiteral(s[p..j])
    ensures p + 1 < j && IsBody(s[p + 1..j])
  {
    assert !IsBody(s[p..j]) by {
      assert s[p..j][0] == '-';
    }
    assert s[p..j][1..] == s[p + 1..j];
  }

  /** Positions of a match: the number is `s[start..end]`. */
  datatype Span = Span(start: nat, end: nat)

  /** The leftmost match at or after `p`, and the longest one at that start,
      which is what `String.prototype.match` returns for this pattern. */
  function FindFrom(s: string, p: nat): (r: Option<Span>)
    requires p <= |s|
    ensures r.None? ==> forall i :: p <= i <= |s| ==> NoLiteralAt(s, i)
    ensures r.Some? ==>
              && p <= r.value.start < r.value.end <= |s|
              && IsNumberLiteral(s[r.value.start..r.value.end])
              && (forall i :: p <= i < r.value.start ==> NoLiteralAt(s, i))
              && LongestAt(s, r.value.start, r.value.end)
    decreases |s| - p
  {
    if p == |s| then Option.None
    else
      var n := MatchLength(s, p);
      MatchLengthSpec(s, p);
      if n > 0 then Some(Span(p, p + n))
      else FindFrom(s, p + 1)
  }

  function FindNumber(s: string): (r: Option<Span>)
    ensures r.None? ==> forall i :: 0 <= i <= |s| ==> NoLiteralAt(s, i)
    ensures r.Some? ==>
              && r.value.start < r.value.end <= |s|
              && IsNumberLiteral(s[r.value.start..r.value.end])
              && (forall i :: 0 <= i < r.value.start ==> NoLiteralAt(s, i))
              && LongestAt(s, r.value.start, r.value.end)
  {
    FindFrom(s, 0)
  }

  // ---------------------------------------------------------------------------
  // The value of a literal
  // ---------------------------------------------------------------------------

  /** The decimal value of a match of `\d*\.?\d+`. */
  function BodyValue(t: string): (r: real)
    requires IsBody(t)
    ensures r >= 0.0
    ensures AllDigits(t) ==> r == DigitsValue(t) as real
  {
    var k := DigitRun(t, 0);
    assert AllDigits(t[..k]);
    if k == |t| then DigitsValue(t) as real
    else
      var frac := t[k + 1..];
      assert AllDigits(frac) by {
        forall i | 0 <= i < |frac| ensures IsDigit(frac[i]) {
          assert t[k + 1 + i] != '.';
        }
      }
      DigitsValue(t[..k]) as real + DigitsValue(frac) as real / Pow10(|frac|) as real
  }

  /** What `parseFloat` gives for a match of the pattern: its exact decimal
      value (the model has no floating-point rounding). */
  function LiteralValue(t: string): (r: real)
    requires IsNumberLiteral(t)
    ensures t[0] != '-' ==> r >= 0.0
    ensures t[0] == '-' ==> r <= 0.0
    ensures AllDigits(t) ==> r == DigitsValue(t) as real
  {
    if t[0] == '-' then
      assert !IsBody(t);
      -BodyValue(t[1..])
    else BodyValue(t)
  }

  // ---------------------------------------------------------------------------
  // Replacement, extraction and rendering
  // ---------------------------------------------------------------------------

  predicate OccursAt(s: string, pat: string, i: nat) {
    i + |pat| <= |s| && s[i..i + |pat|] == pat
  }

  /** The first index at or after `from` where `pat` occurs in `s`. */
  function IndexOf(s: string, pat: string, from: nat): (r: Option<nat>)
    requires from <= |s|
    ensures r.Some? ==> from <= r.value && OccursAt(s, pat, r.value)
    ensures forall i :: from <= i && OccursAt(s, pat, i) ==> r.Some? && r.value <= i
    decreases |s| - from
  {
    if from + |pat| > |s| then Option.None
    else if s[from..from + |pat|] == pat then Some(from)
    else if from == |s| then Option.None
    else IndexOf(s, pat, from + 1)
  }

  /** `s.replace(pat, '')` with a string pattern: the first occurrence of `pat`
      removed, or `s` unchanged when `pat` does not occur. */
  function ReplaceFirst(s: string, pat: string): (r: string)
    ensures IndexOf(s, pat, 0).None? ==> r == s
    ensures IndexOf(s, pat, 0).Some? ==>
              var i := IndexOf(s, pat, 0).value; r == s[..i] + s[i + |pat|..]
  {
    match IndexOf(s, pat, 0)
    case None => s
    case Some(i) => s[..i] + s[i + |pat|..]
  }

  /** The number shown initially and the text around it. */
  datatype Extraction = Extraction(base: real, decoration: string)

  /** The extraction performed once on the trimmed text. */
  function Extract(text: string): (r: Extraction)
    ensures FindNumber(text).None? ==> r == Extraction(0.0, text)
    ensures FindNumber(text).Some? ==> |r.decoration| < |text|
  {
    var m := FindNumber(text);
    var literal := if m.Some? then text[m.value.start..m.value.end] else "";
    assert m.Some? ==> |literal| > 0 && OccursAt(text, literal, m.value.start);
    Extraction(if m.Some? then LiteralValue(literal) else 0.0, ReplaceFirst(text, literal))
  }

  /** Without a match the base is 0 and the decoration is the whole text;
      otherwise the base is the value of the leftmost match and the decoration
      is the text with exactly that match cut out. */
  lemma ExtractSpec(text: string)
    ensures FindNumber(text).None? ==> Extract(text) == Extraction(0.0, text)
    ensures FindNumber(text).Some? ==>
              var sp := FindNumber(text).value;
              && Extract(text).base == LiteralValue(text[sp.start..sp.end])
              && Extract(text).decoration == text[..sp.start] + text[sp.end..]
  {
    match FindNumber(text)
    case Some(sp) =>
      var lit := text[sp.start..sp.end];
      FirstOccurrenceIsMatch(text, sp);
      assert sp.start + |lit| == sp.end;
      assert ReplaceFirst(text, lit) == text[..sp.start] + text[sp.end..];
    case None =>
      assert OccursAt(text, "", 0);
  }

  /** The matched characters cannot occur earlier in the text: an earlier
      occurrence would itself be an earlier match. */
  lemma FirstOccurrenceIsMatch(s: string, sp: Span)
    requires FindNumber(s) == Some(sp)
    ensures IndexOf(s, s[sp.start..sp.end], 0) == Some(sp.start)
  {
    var lit := s[sp.start..sp.end];
    assert OccursAt(s, lit, sp.start);
    var i := IndexOf(s, lit, 0).value;
    assert s[i..i + |lit|] == lit;
    assert !NoLiteralAt(s, i);
  }

  /** The text written for a displayed value: `Math.round(v) + decoration`.
      The number always comes first, whatever its position in the original. */
  function Render(v: real, decoration: string): (r: string)
    ensures |r| > |decoration| && r[|r| - |decoration|..] == decoration
  {
    IntToString(Round(v)) + decoration
  }

  /** What precedes the decoration in the rendered text is a number literal
      that reads back as the rounded value. */
  lemma RenderReadsBack(v: real, decoration: string)
    ensures var r := Render(v, decoration);
            && IsNumberLiteral(r[..|r| - |decoration|])
            && LiteralValue(r[..|r| - |decoration|]) == Round(v) as real
  {
    var lit := IntToString(Round(v));
    IntToStringIsLiteral(Round(v));
    assert (lit + decoration)[..|lit|] == lit;
  }

  /** The decimal spelling of an integer is a match of the pattern and reads
      back as that integer. */
  lemma IntToStringIsLiteral(n: int)
    ensures IsNumberLiteral(IntToString(n))
    ensures LiteralValue(IntToString(n)) == n as real
  {
    var t := IntToString(n);
    var digits := if n >= 0 then t else t[1..];
    assert IsBody(digits);
    DigitRunCovers(digits, 0, |digits|);
    if n < 0 {
      assert !IsBody(t);
    }
  }

  /** Reading back rendered text: when the decoration does not begin with a
      digit or a dot, extracting from `Render(v, d)` recovers the rounded value
      and exactly the decoration `d`. */
  lemma ExtractRender(v: real, d: string)
    requires |d| == 0 || !(IsDigit(d[0]) || d[0] == '.')
    ensures Extract(Render(v, d)) == Extraction(Round(v) as real, d)
  {
    var n := Round(v);
    var lit := IntToString(n);
    var s := Render(v, d);
    assert s == lit + d;
    assert s[0..|lit|] == lit;
    IntToStringIsLiteral(n);
    RenderedLiteralEnds(lit, d);
    MatchLengthSpec(s, 0);
    assert MatchLength(s, 0) == |lit|;
    assert FindNumber(s) == Some(Span(0, |lit|));
    assert s[|lit|..] == d;
  }

  /** Every character of a literal after the first is a digit or a dot. */
  lemma LiteralCharAt(t: string, i: nat)
    requires 0 < i < |t|
    ensures IsNumberLiteral(t) ==> IsDigit(t[i]) || t[i] == '.'
  {
    if IsNumberLiteral(t) && !IsBody(t) {
      assert t[1..][i - 1] == t[i];
    }
  }

  /** A literal followed by text that does not continue it is matched whole. */
  lemma RenderedLiteralEnds(lit: string, d: string)
    requires IsNumberLiteral(lit)
    requires |d| == 0 || !(IsDigit(d[0]) || d[0] == '.')
    ensures LongestAt(lit + d, 0, |lit|)
  {
    var s := lit + d;
    forall j | |lit| < j <= |s| ensures !IsNumberLiteral(s[0..j]) {
      LiteralCharAt(s[0..j], |lit|);
      assert s[0..j][|lit|] == d[0];
    }
  }
}

=== FILE: dropdown.dfy ===
/** A group of dropdowns of which at most one is open: a button click toggles
    its dropdown, opening one closes every other, and an outside click is
    caught by a document-level listener that is registered once the opening
    animation has had time to finish. */
module Dropdown {
  import opened Wrappers

  /** Per dropdown: whether it is open, whether its outside-click listener is
      registered on the document, and how many registration timers are still
      pending. */
  datatype Group = Group(open: seq<bool>, listening: seq<bool>, pending: seq<nat>, animationDuration: real)

  predicate ValidGroup(g: Group) {
    |g.listening| == |g.open| && |g.pending| == |g.open|
  }

  /** Class and listener changes the page performs. `Activate(i)` and
      `Deactivate(i)` add or remove the `active` class on container and button
      `i`. */
  datatype Effect =
    | Activate(index: nat)
    | Deactivate(index: nat)
    | ScheduleListen(index: nat, delay: real)
    | AddListener(index: nat)
    | RemoveListener(index: nat)

  /** A button click on dropdown `index`; a click that reached the document,
      delivered to the listener of dropdown `index` with where its target lies;
      the expiry of a registration timer of dropdown `index`. */
  datatype Event =
    | ButtonClick(index: nat)
    | DocumentClick(index: nat, inContainer: bool, onButton: bool)
    | ListenTimerFired(index: nat)

  datatype SetupError = CountMismatch

  predicate AtMostOneOpen(open: seq<bool>) {
    forall i, j :: 0 <= i < |open| && 0 <= j < |open| && open[i] && open[j] ==> i == j
  }

  const DefaultAnimationDuration: real := 300.0

  /** Setting up a group from `containers` containers and `buttons` buttons:
      with differing counts nothing is created; otherwise every dropdown
      starts closed with no listener registered. */
  function Create(containers: nat, buttons: nat, animationDuration: Option<real>): (r: Result<Group, SetupError>)
    ensures containers != buttons <==> r == Failure(CountMismatch)
    ensures r.Success? ==>
              && ValidGroup(r.value) && |r.value.open| == containers
              && (forall i :: 0 <= i < containers ==> !r.value.open[i] && !r.value.listening[i] && r.value.pending[i] == 0)
              && r.value.animationDuration == animationDuration.GetOr(DefaultAnimationDuration)
  {
    if containers != buttons then Failure(CountMismatch)
    else Success(Group(seq(containers, _ => false), seq(containers, _ => false), seq(containers, _ => 0),
                       animationDuration.GetOr(DefaultAnimationDuration)))
  }

  /** The effects of closing every open dropdown from `i` on, except `except`,
      in index order. */
  function CloseEffects(open: seq<bool>, except: nat, i: nat): (fx: seq<Effect>)
    requires i <= |open|
    ensures forall e :: e in fx ==> i <= e.index < |open| && e.index != except && open[e.index]
    ensures forall e :: e in fx ==> e.Deactivate? || e.RemoveListener?
    ensures forall j :: i <= j < |open| && j != except && open[j] ==> Deactivate(j) in fx && RemoveListener(j) in fx
    decreases |open| - i
  {
    if i == |open| then []
    else (if i != except && open[i] then [Deactivate(i), RemoveListener(i)] else []) + CloseEffects(open, except, i + 1)
  }

  /** `closeAllExcept`: every open dropdown other than `except` is closed and
      its listener removed; dropdown `except` is not touched, and a closed
      dropdown keeps whatever listener state it had. */
  function CloseAllExcept(g: Group, except: nat): (r: (Group, seq<Effect>))
    requires ValidGroup(g)
    ensures ValidGroup(r.0) && |r.0.open| == |g.open|
    ensures forall j :: 0 <= j < |g.open| && j != except ==> !r.0.open[j]
    ensures except < |g.open| ==> r.0.open[except] == g.open[except] && r.0.listening[except] == g.listening[except]
    ensures forall j :: 0 <= j < |g.open| && !g.open[j] ==> r.0.listening[j] == g.listening[j]
    ensures forall j :: 0 <= j < |g.open| && j != except && g.open[j] ==> !r.0.listening[j]
    ensures r.0.pending == g.pending && r.0.animationDuration == g.animationDuration
    ensures forall e :: e in r.1 ==> e.index < |g.open| && e.index != except && g.open[e.index]
    ensures forall e :: e in r.1 ==> e.Deactivate? || e.RemoveListener?
    ensures forall j :: 0 <= j < |g.open| && j != except && g.open[j] ==> Deactivate(j) in r.1 && RemoveListener(j) in r.1
  {
    var n := |g.open|;
    (g.(open := seq(n, j requires 0 <= j < n => j == except && g.open[j]),
        listening := seq(n, j requires 0 <= j < n => if j != except && g.open[j] then false else g.listening[j])),
     CloseEffects(g.open, except, 0))
  }

  /** `toggle(i)`: flips dropdown `i`. Opening it first closes every other
      dropdown, then activates it and schedules its listener registration;
      closing it deactivates it and removes its listener, and leaves every
      other dropdown as it was. */
  function Toggle(g: Group, i: nat): (r: (Group, seq<Effect>))
    requires ValidGroup(g) && i < |g.open|
    ensures ValidGroup(r.0) && |r.0.open| == |g.open| && r.0.animationDuration == g.animationDuration
    ensures r.0.open[i] == !g.open[i]
    ensures r.0.open[i] ==> forall j :: 0 <= j < |g.open| && j != i ==> !r.0.open[j]
    ensures r.0.open[i] ==> r.0.pending[i] == g.pending[i] + 1 && r.0.listening[i] == g.listening[i]
    ensures !r.0.open[i] ==> !r.0.listening[i] && r.0.pending == g.pending
    ensures !r.0.open[i] ==> forall j :: 0 <= j < |g.open| && j != i ==>
              r.0.open[j] == g.open[j] && r.0.listening[j] == g.listening[j]
    ensures forall j :: 0 <= j < |g.open| && !g.open[j] && j != i ==> r.0.listening[j] == g.listening[j]
    ensures forall j :: 0 <= j < |g.open| && g.open[j] && j != i ==> !r.0.open[j] || r.0.listening[j] == g.listening[j]
    ensures forall j :: 0 <= j < |g.open| && j != i ==> r.0.pending[j] == g.pending[j]
    ensures g.open[i] ==> r.1 == [Deactivate(i), RemoveListener(i)]
    ensures !g.open[i] ==> |r.1| >= 2 && r.1[|r.1| - 2..] == [Activate(i), ScheduleListen(i, g.animationDuration)]
    ensures !g.open[i] ==> forall e :: e in r.1[..|r.1| - 2] ==>
              (e.Deactivate? || e.RemoveListener?) && e.index < |g.open| && e.index != i && g.open[e.index]
    ensures !g.open[i] ==> forall j :: 0 <= j < |g.open| && j != i && g.open[j] ==>
              Deactivate(j) in r.1 && RemoveListener(j) in r.1
  {
    if !g.open[i] then
      var (g1, fx) := CloseAllExcept(g.(open := g.open[i := true]), i);
      (g1.(pending := g1.pending[i := g1.pending[i] + 1]),
       fx + [Activate(i), ScheduleListen(i, g.animationDuration)])
    else
      (g.(open := g.open[i := false], listening := g.listening[i := false]),
       [Deactivate(i), RemoveListener(i)])
  }

  /** The outside-click rule: the listener of dropdown `i` toggles it only
      when the click target is in neither its container nor its button. */
  function OutsideClick(g: Group, i: nat, inContainer: bool, onButton: bool): (r: (Group, seq<Effect>))
    requires ValidGroup(g) && i < |g.open|
    ensures (!g.listening[i] || inContainer || onButton) ==> r == (g, [])
    ensures g.listening[i] && !inContainer && !onButton ==> r == Toggle(g, i)
  {
    if g.listening[i] && !inContainer && !onButton then Toggle(g, i) else (g, [])
  }

  /** The registration timer AS WRITTEN: it registers the listener whether or
      not the dropdown is still open. */
  function ListenTimerAsWritten(g: Group, i: nat): (r: (Group, seq<Effect>))
    requires ValidGroup(g) && i < |g.open|
    ensures ValidGroup(r.0) && r.0.open == g.open
    ensures g.pending[i] > 0 ==> r.0.listening[i] && r.1 == [AddListener(i)]
    ensures g.pending[i] == 0 ==> r == (g, [])
  {
    if g.pending[i] == 0 then (g, [])
    else (g.(pending := g.pending[i := g.pending[i] - 1], listening := g.listening[i := true]), [AddListener(i)])
  }

  /** The registration timer as evidently intended: the listener is registered
      only if the dropdown is still open when the timer fires. */
  function ListenTimer(g: Group, i: nat): (r: (Group, seq<Effect>))
    requires ValidGroup(g) && i < |g.open|
    ensures ValidGroup(r.0) && r.0.open == g.open
    ensures g.pending[i] > 0 && g.open[i] ==> r.0.listening[i] && r.1 == [AddListener(i)]
    ensures !(g.pending[i] > 0 && g.open[i]) ==> r.0.listening == g.listening && r.1 == []
    ensures forall j :: 0 <= j < |g.open| && j != i ==> r.0.listening[j] == g.listening[j]
  {
    if g.pending[i] == 0 then (g, [])
    else
      var g1 := g.(pending := g.pending[i := g.pending[i] - 1]);
      if g.open[i] then (g1.(listening := g.listening[i := true]), [AddListener(i)]) else (g1, [])
  }

  /** Events for indices outside the group cannot arise (every handler is
      created for an existing dropdown) and change nothing. */
  function Step(g: Group, e: Event): (r: (Group, seq<Effect>))
    requires ValidGroup(g)
    ensures ValidGroup(r.0) && |r.0.open| == |g.open|
    ensures e.index >= |g.open| ==> r == (g, [])
    ensures e.index < |g.open| && e.ButtonClick? ==> r.0.open[e.index] == !g.open[e.index]
    ensures e.index < |g.open| && e.ButtonClick? ==> r == Toggle(g, e.index)
    ensures e.index < |g.open| && e.DocumentClick? ==> r == OutsideClick(g, e.index, e.inContainer, e.onButton)
    ensures e.index < |g.open| && e.ListenTimerFired? ==> r == ListenTimer(g, e.index)
  {
    if e.index >= |g.open| then (g, [])
    else
      match e
      case ButtonClick(i) => Toggle(g, i)
      case DocumentClick(i, inContainer, onButton) => OutsideClick(g, i, inContainer, onButton)
      case ListenTimerFired(i) => ListenTimer(g, i)
  }

  /** At most one dropdown is open, and only an open dropdown has its
      outside-click listener registered. */
  predicate Inv(g: Group) {
    && ValidGroup(g)
    && AtMostOneOpen(g.open)
    && forall i :: 0 <= i < |g.open| && g.listening[i] ==> g.open[i]
  }

  lemma CreateEstablishesInv(containers: nat, buttons: nat, d: Option<real>)
    requires containers == buttons
    ensures Inv(Create(containers, buttons, d).value)
  {
  }

  /** Every event preserves the invariant. */
  lemma StepPreservesInv(g: Group, e: Event)
    requires Inv(g)
    ensures Inv(Step(g, e).0)
  {
    var r := Step(g, e).0;
    if e.index < |g.open| {
      var i := e.index;
      if e.ButtonClick? || (e.DocumentClick? && g.listening[i] && !e.inContainer && !e.onButton) {
        assert r == Toggle(g, i).0;
        if r.open[i] {
          assert forall j :: 0 <= j < |g.open| && j != i ==> !r.open[j];
        } else {
          assert forall j :: 0 <= j < |g.open| && j != i ==> r.open[j] == g.open[j];
        }
      }
    }
  }

  function Run(g: Group, events: seq<Event>): (r: Group)
    requires ValidGroup(g)
    ensures ValidGroup(r) && |r.open| == |g.open|
    decreases |events|
  {
    if |events| == 0 then g else Run(Step(g, events[0]).0, events[1..])
  }

  /** From setup on, at most one dropdown is ever open. */
  lemma {:induction false} RunPreservesInv(g: Group, events: seq<Event>)
    requires Inv(g)
    ensures Inv(Run(g, events))
    ensures AtMostOneOpen(Run(g, events).open)
    decreases |events|
  {
    if |events| > 0 {
      StepPreservesInv(g, events[0]);
      RunPreservesInv(Step(g, events[0]).0, events[1..]);
    }
  }

  /** Under the invariant a click outside a dropdown only ever closes it. */
  lemma OutsideClickOnlyCloses(g: Group, i: nat, inContainer: bool, onButton: bool)
    requires Inv(g) && i < |g.open|
    ensures forall j :: 0 <= j < |g.open| && OutsideClick(g, i, inContainer, onButton).0.open[j] ==> g.open[j]
  {
  }

  /** The two timers differ only when the dropdown was closed before its
      timer fired. */
  lemma TimersAgreeWhileOpen(g: Group, i: nat)
    requires ValidGroup(g) && i < |g.open| && g.open[i]
    ensures ListenTimer(g, i) == ListenTimerAsWritten(g, i)
  {
  }

  /** One event of the script as written, with the unconditional timer. */
  function StepAsWritten(g: Group, e: Event): (r: (Group, seq<Effect>))
    requires ValidGroup(g)
    ensures ValidGroup(r.0) && |r.0.open| == |g.open|
    ensures e.index >= |g.open| ==> r == (g, [])
    ensures e.index < |g.open| && e.ButtonClick? ==> r.0.open[e.index] == !g.open[e.index]
    ensures e.ListenTimerFired? ==> r.0.open == g.open
    ensures e.index < |g.open| && e.ButtonClick? ==> r == Toggle(g, e.index)
    ensures e.index < |g.open| && e.DocumentClick? ==> r == OutsideClick(g, e.index, e.inContainer, e.onButton)
    ensures e.index < |g.open| && e.ListenTimerFired? ==> r == ListenTimerAsWritten(g, e.index)
  {
    if e.index >= |g.open| then (g, [])
    else
      match e
      case ButtonClick(i) => Toggle(g, i)
      case DocumentClick(i, inContainer, onButton) => OutsideClick(g, i, inContainer, onButton)
      case ListenTimerFired(i) => ListenTimerAsWritten(g, i)
  }

  function RunAsWritten(g: Group, events: seq<Event>): (r: Group)
    requires ValidGroup(g)
    ensures ValidGroup(r) && |r.open| == |g.open|
    decreases |events|
  {
    if |events| == 0 then g else RunAsWritten(StepAsWritten(g, events[0]).0, events[1..])
  }

  /** Even as written, every event keeps at most one dropdown open. */
  lemma StepAsWrittenKeepsOneOpen(g: Group, e: Event)
    requires ValidGroup(g) && AtMostOneOpen(g.open)
    ensures AtMostOneOpen(StepAsWritten(g, e).0.open)
  {
    var r := StepAsWritten(g, e).0;
    if e.index < |g.open| {
      var i := e.index;
      if e.ButtonClick? || (e.DocumentClick? && g.listening[i] && !e.inContainer && !e.onButton) {
        assert r == Toggle(g, i).0;
        if r.open[i] {
          assert forall j :: 0 <= j < |g.open| && j != i ==> !r.open[j];
        } else {
          assert forall j :: 0 <= j < |g.open| && j != i ==> r.open[j] == g.open[j];
        }
      }
    }
  }

  /** Even as written, at most one dropdown is ever open. */
  lemma {:induction false} RunAsWrittenKeepsOneOpen(g: Group, events: seq<Event>)
    requires ValidGroup(g) && AtMostOneOpen(g.open)
    ensures AtMostOneOpen(RunAsWritten(g, events).open)
    decreases |events|
  {
    if |events| > 0 {
      StepAsWrittenKeepsOneOpen(g, events[0]);
      RunAsWrittenKeepsOneOpen(StepAsWritten(g, events[0]).0, events[1..]);
    }
  }

  /** As written, the run does not keep listeners on open dropdowns only: a
      dropdown opened and closed again before its registration timer fires
      ends up closed with a registered listener, and the next click outside it
      opens it. */
  lemma StaleListenerReopens()
    ensures var g0 := Create(1, 1, Option.None).value;
            var trace := [ButtonClick(0), ButtonClick(0), ListenTimerFired(0)];
            var g3 := RunAsWritten(g0, trace);
            && Inv(g0)
            && !g3.open[0] && g3.listening[0] && !Inv(g3)
            && RunAsWritten(g0, trace + [DocumentClick(0, false, false)]).open[0]
  {
    var g0 := Create(1, 1, Option.None).value;
    var g1 := StepAsWritten(g0, ButtonClick(0)).0;
    var g2 := StepAsWritten(g1, ButtonClick(0)).0;
    var g3 := StepAsWritten(g2, ListenTimerFired(0)).0;
    var g4 := StepAsWritten(g3, DocumentClick(0, false, false)).0;
    assert RunAsWritten(g3, []) == g3;
    assert RunAsWritten(g3, [DocumentClick(0, false, false)]) == RunAsWritten(g4, []);
    assert RunAsWritten(g0, [ButtonClick(0), ButtonClick(0), ListenTimerFired(0)]) == g3 by {
      assert [ButtonClick(0), ButtonClick(0), ListenTimerFired(0)][1..] == [ButtonClick(0), ListenTimerFired(0)];
      assert [ButtonClick(0), ListenTimerFired(0)][1..] == [ListenTimerFired(0)];
      assert [ListenTimerFired(0)][1..] == [];
    }
    var t4 := [ButtonClick(0), ButtonClick(0), ListenTimerFired(0), DocumentClick(0, false, false)];
    assert [ButtonClick(0), ButtonClick(0), ListenTimerFired(0)] + [DocumentClick(0, false, false)] == t4;
    assert t4[1..][1..][1..] == [DocumentClick(0, false, false)];
  }
}

=== FILE: js_numbers.dfy ===
/** The few JavaScript number primitives the scripts rely on, written out for
    unbounded integers and exact reals. */
module JsNumbers {

  /** `Math.round`: the nearest integer, with halves rounded towards +infinity
      (so `Math.round(-3.5) == -3`). */
  function Round(x: real): (n: int)
    ensures x - 0.5 < n as real <= x + 0.5
  {
    (x + 0.5).Floor
  }

  /** `Math.ceil`: the least integer not below its argument. */
  function Ceil(x: real): (n: int)
    ensures x <= n as real < x + 1.0
  {
    -((-x).Floor)
  }

  /** The `%` operator on integers, for a positive divisor: truncating
      division, so a non-zero remainder has the sign of the dividend (unlike
      Dafny's Euclidean `%`). */
  function Rem(a: int, n: int): (r: int)
    requires n > 0
    ensures -n < r < n
    ensures a >= 0 ==> r >= 0
    ensures a <= 0 ==> r <= 0
    ensures r >= 0 ==> r == a % n
    ensures r < 0 ==> r + n == a % n
  {
    if a >= 0 then a % n
    else
      var q, m := (-a) / n, (-a) % n;
      if m == 0 then
        EuclideanUnique(a, n, -q, 0);
        0
      else
        EuclideanUnique(a, n, -q - 1, n - m);
        -m
  }

  /** Dafny's `%` is determined by any quotient-remainder decomposition. */
  lemma EuclideanUnique(a: int, n: int, k: int, t: int)
    requires n > 0 && 0 <= t < n && a == k * n + t
    ensures a % n == t
  {
    var d := a / n - k;
    assert a == (a / n) * n + a % n;
    assert d * n == t - a % n;
  }

  /** Digits in the sense of the regular-expression class `\d`: ASCII 0-9 only. */
  predicate IsDigit(c: char) {
    '0' <= c <= '9'
  }

  predicate AllDigits(s: string) {
    forall i :: 0 <= i < |s| ==> IsDigit(s[i])
  }

  function DigitValue(c: char): nat
    requires IsDigit(c)
  {
    c as int - '0' as int
  }

  function DigitChar(d: nat): (c: char)
    requires d < 10
    ensures IsDigit(c) && DigitValue(c) == d
  {
    ('0' as int + d) as char
  }

  /** The value of a string of decimal digits, most significant first. */
  function DigitsValue(s: string): nat
    requires AllDigits(s)
  {
    if |s| == 0 then 0 else 10 * DigitsValue(s[..|s| - 1]) + DigitValue(s[|s| - 1])
  }

  function Pow10(n: nat): (p: nat)
    ensures p >= 1
  {
    if n == 0 then 1 else 10 * Pow10(n - 1)
  }

  /** The shortest decimal spelling of a natural number. */
  function NatToDigits(n: nat): (s: string)
    ensures |s| >= 1 && AllDigits(s)
    ensures DigitsValue(s) == n
    ensures s[0] == '0' ==> n == 0
    decreases n
  {
    if n < 10 then [DigitChar(n)]
    else
      var prefix := NatToDigits(n / 10);
      var s := prefix + [DigitChar(n % 10)];
      assert s[..|s| - 1] == prefix;
      s
  }

  /** `String(n)` for an integer-valued number (no exponent form, no `-0`). */
  function IntToString(n: int): (s: string)
    ensures |s| >= 1
    ensures n >= 0 <==> s[0] != '-'
    ensures n >= 0 ==> AllDigits(s) && DigitsValue(s) == n
    ensures n < 0 ==> |s| >= 2 && AllDigits(s[1..]) && DigitsValue(s[1..]) == -n
  {
    if n >= 0 then NatToDigits(n)
    else
      var digits := NatToDigits(-n);
      assert ("-" + digits)[1..] == digits;
      "-" + digits
  }
}

=== FILE: menu.dfy ===
/** A single toggled menu: a button opens and closes it, an optional close
    button only closes it, a click outside closes it once the opening
    animation has finished, and without a close button the toggle button is
    kept above the menu container by its z-index. */
module Menu {
  import opened Wrappers

  /** What is fixed at setup: whether a close button exists, the delay before
      the outside-click listener is registered, and whether open/close
      callbacks were given. */
  datatype MenuConfig = MenuConfig(hasCloseButton: bool, animationDuration: real, hasCallbacks: bool)

  /** Whether the menu is open, whether its outside-click listener is
      registered, and how many registration timers are pending. */
  datatype MenuState = MenuState(isOpen: bool, listening: bool, pending: nat)

  /** The computed z-indices of container and button as `parseInt` reads
      them; `None` stands for NaN (such as `auto`). */
  datatype Styles = Styles(containerZ: Option<int>, buttonZ: Option<int>)

  datatype Effect =
    | Activate
    | Deactivate
    | SetButtonZ(z: int)
    | CallOnOpen
    | CallOnClose
    | ScheduleListen(delay: real)
    | AddListener
    | RemoveListener

  /** Clicks carry the computed styles at that moment; a click that reached the
      document carries where its target lies. `ContainerMutated` is a change of
      the container's `style` or `class` attribute. */
  datatype Event =
    | ButtonClick(styles: Styles)
    | CloseButtonClick(styles: Styles)
    | DocumentClick(inContainer: bool, onButton: bool, onCloseButton: bool, styles: Styles)
    | ListenTimerFired
    | ContainerMutated(styles: Styles)

  const DefaultAnimationDuration: real := 300.0

  function Setup(hasCloseButton: bool, animationDuration: Option<real>, hasCallbacks: bool): (r: (MenuConfig, MenuState))
    ensures !r.1.isOpen && !r.1.listening && r.1.pending == 0
    ensures r.0.animationDuration == animationDuration.GetOr(DefaultAnimationDuration)
  {
    (MenuConfig(hasCloseButton, animationDuration.GetOr(DefaultAnimationDuration), hasCallbacks),
     MenuState(false, false, 0))
  }

  /** `parseInt(...) || 0`: NaN and 0 both read as 0. */
  function ZOrZero(z: Option<int>): (r: int)
    ensures r == 0 <==> z.None? || z == Some(0)
    ensures r != 0 ==> z == Some(r)
  {
    z.GetOr(0)
  }

  /** The button's new z-index: one above the container's unless the button is
      already higher. */
  function ButtonZ(st: Styles): (z: int)
    ensures z >= ZOrZero(st.containerZ) + 1 && z >= ZOrZero(st.buttonZ)
    ensures z == ZOrZero(st.containerZ) + 1 || z == ZOrZero(st.buttonZ)
  {
    var c, b := ZOrZero(st.containerZ), ZOrZero(st.buttonZ);
    if c + 1 >= b then c + 1 else b
  }

  /** `adjustButtonZIndex`: skipped entirely with a close button; otherwise it
      raises the button and then calls the open or close callback matching
      the current state. */
  function AdjustButtonZ(cfg: MenuConfig, isOpen: bool, st: Styles): (fx: seq<Effect>)
    ensures cfg.hasCloseButton ==> fx == []
    ensures !cfg.hasCloseButton ==> |fx| >= 1 && fx[0] == SetButtonZ(ButtonZ(st))
    ensures forall e :: e in fx && e.SetButtonZ? ==> e.z >= ZOrZero(st.containerZ) + 1 && e.z >= ZOrZero(st.buttonZ)
    ensures CallOnOpen in fx <==> !cfg.hasCloseButton && cfg.hasCallbacks && isOpen
    ensures CallOnClose in fx <==> !cfg.hasCloseButton && cfg.hasCallbacks && !isOpen
  {
    if cfg.hasCloseButton then []
    else [SetButtonZ(ButtonZ(st))] + (if !cfg.hasCallbacks then [] else if isOpen then [CallOnOpen] else [CallOnClose])
  }

  /** `toggle`: flips the menu. Opening activates the container, adjusts the
      button and schedules the listener registration; closing deactivates the
      container, removes the listener and adjusts the button. */
  function Toggle(cfg: MenuConfig, m: MenuState, st: Styles): (r: (MenuState, seq<Effect>))
    ensures r.0.isOpen == !m.isOpen
    ensures |r.1| >= 2
    ensures r.0.isOpen ==> r.0.pending == m.pending + 1 && r.0.listening == m.listening
                           && r.1[0] == Activate && r.1[|r.1| - 1] == ScheduleListen(cfg.animationDuration)
    ensures !r.0.isOpen ==> !r.0.listening && r.0.pending == m.pending && r.1[..2] == [Deactivate, RemoveListener]
    ensures !m.isOpen ==> r.1 == [Activate] + AdjustButtonZ(cfg, true, st) + [ScheduleListen(cfg.animationDuration)]
    ensures m.isOpen ==> r.1 == [Deactivate, RemoveListener] + AdjustButtonZ(cfg, false, st)
  {
    if !m.isOpen then
      (m.(isOpen := true, pending := m.pending + 1),
       [Activate] + AdjustButtonZ(cfg, true, st) + [ScheduleListen(cfg.animationDuration)])
    else
      (m.(isOpen := false, listening := false),
       [Deactivate, RemoveListener] + AdjustButtonZ(cfg, false, st))
  }

  /** The close button toggles only an open menu, so it never opens one.
      Without a close button no such click exists and nothing changes. */
  function CloseButton(cfg: MenuConfig, m: MenuState, st: Styles): (r: (MenuState, seq<Effect>))
    ensures cfg.hasCloseButton ==> !r.0.isOpen
    ensures cfg.hasCloseButton && m.isOpen ==> r == Toggle(cfg, m, st)
    ensures !m.isOpen || !cfg.hasCloseButton ==> r == (m, [])
  {
    if cfg.hasCloseButton && m.isOpen then Toggle(cfg, m, st) else (m, [])
  }

  /** The outside-click rule: toggles only when the listener is registered and
      the target lies outside the container, the button and the close button
      (if there is one). */
  function OutsideClick(cfg: MenuConfig, m: MenuState, inContainer: bool, onButton: bool,
                        onCloseButton: bool, st: Styles): (r: (MenuState, seq<Effect>))
    ensures r.0.isOpen != m.isOpen <==>
              m.listening && !inContainer && !onButton && !(cfg.hasCloseButton && onCloseButton)
    ensures r.0.isOpen == m.isOpen ==> r == (m, [])
  {
    if m.listening && !inContainer && !onButton && !(cfg.hasCloseButton && onCloseButton)
    then Toggle(cfg, m, st) else (m, [])
  }

  /** The registration timer AS WRITTEN: it registers the listener whether or
      not the menu is still open. */
  function ListenTimerAsWritten(m: MenuState): (r: (MenuState, seq<Effect>))
    ensures m.pending > 0 ==> r.0 == m.(listening := true, pending := m.pending - 1) && r.1 == [AddListener]
    ensures m.pending == 0 ==> r == (m, [])
  {
    if m.pending == 0 then (m, []) else (m.(listening := true, pending := m.pending - 1), [AddListener])
  }

  /** The registration timer as evidently intended: the listener is registered
      only if the menu is still open when the timer fires. */
  function ListenTimer(m: MenuState): (r: (MenuState, seq<Effect>))
    ensures r.0.isOpen == m.isOpen
    ensures r.0.listening <==> m.listening || (m.pending > 0 && m.isOpen)
    ensures r.1 == [AddListener] <==> m.pending > 0 && m.isOpen
  {
    if m.pending == 0 then (m, [])
    else if m.isOpen then (m.(listening := true, pending := m.pending - 1), [AddListener])
    else (m.(pending := m.pending - 1), [])
  }

  /** The container's attribute observer re-adjusts the button only while the
      menu is open. */
  function Mutated(cfg: MenuConfig, m: MenuState, st: Styles): (fx: seq<Effect>)
    ensures !m.isOpen ==> fx == []
    ensures m.isOpen ==> fx == AdjustButtonZ(cfg, true, st)
  {
    if m.isOpen then AdjustButtonZ(cfg, true, st) else []
  }

  function Step(cfg: MenuConfig, m: MenuState, e: Event): (r: (MenuState, seq<Effect>))
    ensures e.CloseButtonClick? && cfg.hasCloseButton ==> !r.0.isOpen
    ensures e.ListenTimerFired? || e.ContainerMutated? ==> r.0.isOpen == m.isOpen
    ensures e.ButtonClick? ==> r == Toggle(cfg, m, e.styles)
    ensures e.CloseButtonClick? ==> r == CloseButton(cfg, m, e.styles)
    ensures e.DocumentClick? ==> r == OutsideClick(cfg, m, e.inContainer, e.onButton, e.onCloseButton, e.styles)
    ensures e.ListenTimerFired? ==> r == ListenTimer(m)
    ensures e.ContainerMutated? ==> r == (m, Mutated(cfg, m, e.styles))
  {
    match e
    case ButtonClick(st) => Toggle(cfg, m, st)
    case CloseButtonClick(st) => CloseButton(cfg, m, st)
    case DocumentClick(inC, onB, onCB, st) => OutsideClick(cfg, m, inC, onB, onCB, st)
    case ListenTimerFired => ListenTimer(m)
    case ContainerMutated(st) => (m, Mutated(cfg, m, st))
  }

  function Run(cfg: MenuConfig, m: MenuState, events: seq<Event>): MenuState
    decreases |events|
  {
    if |events| == 0 then m else Run(cfg, Step(cfg, m, events[0]).0, events[1..])
  }

  /** Only an open menu has its outside-click listener registered. */
  predicate Inv(m: MenuState) {
    m.listening ==> m.isOpen
  }

  lemma {:induction false} RunPreservesInv(cfg: MenuConfig, m: MenuState, events: seq<Event>)
    requires Inv(m)
    ensures Inv(Run(cfg, m, events))
    decreases |events|
  {
    if |events| > 0 {
      var m1 := Step(cfg, m, events[0]).0;
      assert Inv(m1);
      RunPreservesInv(cfg, m1, events[1..]);
    }
  }

  /** Under the invariant no outside click ever opens the menu. */
  lemma OutsideClickOnlyCloses(cfg: MenuConfig, m: MenuState, inC: bool, onB: bool, onCB: bool, st: Styles)
    requires Inv(m)
    ensures OutsideClick(cfg, m, inC, onB, onCB, st).0.isOpen ==> m.isOpen
  {
  }

  /** The two timers differ only when the menu was closed before the timer
      fired. */
  lemma TimersAgreeWhileOpen(m: MenuState)
    requires m.isOpen
    ensures ListenTimer(m) == ListenTimerAsWritten(m)
  {
  }

  /** One event of the script as written, with the unconditional timer. */
  function StepAsWritten(cfg: MenuConfig, m: MenuState, e: Event): (r: (MenuState, seq<Effect>))
    ensures e.CloseButtonClick? && cfg.hasCloseButton ==> !r.0.isOpen
    ensures e.ListenTimerFired? || e.ContainerMutated? ==> r.0.isOpen == m.isOpen
    ensures e.ListenTimerFired? && m.pending > 0 ==> r.0.listening
  {
    match e
    case ButtonClick(st) => Toggle(cfg, m, st)
    case CloseButtonClick(st) => CloseButton(cfg, m, st)
    case DocumentClick(inC, onB, onCB, st) => OutsideClick(cfg, m, inC, onB, onCB, st)
    case ListenTimerFired => ListenTimerAsWritten(m)
    case ContainerMutated(st) => (m, Mutated(cfg, m, st))
  }

  function RunAsWritten(cfg: MenuConfig, m: MenuState, events: seq<Event>): MenuState
    decreases |events|
  {
    if |events| == 0 then m else RunAsWritten(cfg, StepAsWritten(cfg, m, events[0]).0, events[1..])
  }

  /** As written, the run does not keep the listener on an open menu only: a
      menu opened and closed again before its registration timer fires ends up
      closed with a registered listener, and the next click outside opens it. */
  lemma StaleListenerReopens(hasCloseButton: bool, d: Option<real>, hasCallbacks: bool, st: Styles)
    ensures var (cfg, m0) := Setup(hasCloseButton, d, hasCallbacks);
            var trace := [ButtonClick(st), ButtonClick(st), ListenTimerFired];
            var m3 := RunAsWritten(cfg, m0, trace);
            && Inv(m0)
            && !m3.isOpen && m3.listening && !Inv(m3)
            && RunAsWritten(cfg, m0, trace + [DocumentClick(false, false, false, st)]).isOpen
  {
    var (cfg, m0) := Setup(hasCloseButton, d, hasCallbacks);
    var click := DocumentClick(false, false, false, st);
    var m1 := StepAsWritten(cfg, m0, ButtonClick(st)).0;
    var m2 := StepAsWritten(cfg, m1, ButtonClick(st)).0;
    var m3 := StepAsWritten(cfg, m2, ListenTimerFired).0;
    var m4 := StepAsWritten(cfg, m3, click).0;
    var trace := [ButtonClick(st), ButtonClick(st), ListenTimerFired];
    assert trace[1..] == [ButtonClick(st), ListenTimerFired];
    assert trace[1..][1..] == [ListenTimerFired];
    assert trace[1..][1..][1..] == [];
    assert m3 == MenuState(false, true, 0);
    assert RunAsWritten(cfg, m3, []) == m3;
    assert RunAsWritten(cfg, m2, trace[1..][1..]) == m3;
    assert RunAsWritten(cfg, m1, trace[1..]) == m3;
    assert RunAsWritten(cfg, m0, trace) == m3;
    var t4 := trace + [click];
    assert t4[1..] == trace[1..] + [click];
    assert t4[1..][1..] == [ListenTimerFired, click];
    assert t4[1..][1..][1..] == [click];
    assert m4.isOpen;
    assert RunAsWritten(cfg, m3, [click]) == m4 by {
      assert [click][1..] == [];
    }
    assert RunAsWritten(cfg, m2, t4[1..][1..]) == m4;
    assert RunAsWritten(cfg, m1, t4[1..]) == m4;
  }
}

=== FILE: wrappers.dfy ===
/** Optional values and results shared by every module of the model. */
module Wrappers {

  /** A value that may be absent: the model's stand-in for JavaScript's `null`. */
  datatype Option<+T> = None | Some(value: T) {

    /** The wrapped value, or `default` when there is none (JavaScript's `x ?? default`). */
    function GetOr(default: T): T {
      match this
      case Some(v) => v
      case None => default
    }
  }

  /** The outcome of a setup routine that can refuse its arguments. */
  datatype Result<+R, +E> = Success(value: R) | Failure(error: E)
}
